=== FILE: README.md ===
# Nexus result renderer, modelled in Dafny

Nexus is a single-page patent analysis tool (`index.tsx`). A language model returns its
analysis as semi-structured text. That text holds pipe tables, `**bold**` spans, the literal
two-character escape `\n`, `<br>` tags, and the support levels "Inferentially Supported",
"Partially Supported", "Not Supported" and "Supported". This project models the code that
turns such a reply into output.

- `ResultDisplay` walks the reply into headings, paragraphs and tables for the screen. It also
  takes the title from an analysis heading.
- `generateExportableHtml` walks the same reply into a standalone HTML page.
- `UnderstandingDisplay` walks the patent summary the same way, with simpler rules.
- Two helpers render table cells. `renderMarkdownBold` splits a cell into plain and bold
  segments. `renderAnalystComment` turns a cell of an analyst column into a support-level
  badge.
- The model also covers a few state helpers of the `App` component:
  - the elapsed-time label;
  - the ten-entry analysis history;
  - the manual claim clause list and the numbered clause text put into the prompt;
  - the resizing of the prior art reference list.

All three walkers share one meaning, defined once in module `Lines`. In `Lines.Walk`, every
maximal run of consecutive table lines goes, as one list of rows, to the renderer's table
emitter. Every other line goes to its line emitter, in document order. Each walker is an
imperative method whose loop is proved against `Walk`, using the invariant `Lines.Progress`.
The three walks differ in the emitters they pass. The interactive renderer also takes the
title line off before it walks (index.tsx:511-517). The lemmas state what each emitter does,
and where the renderers agree and where they differ.

Modules:

- `Text`: the JavaScript string built-ins the code relies on, as functions.
- `Bold`: the `renderMarkdownBold` loop and the scanner standing in for `/\*\*(.*?)\*\*/g`.
- `Cells`: cell cleaning. This is the `<br\s*\/?>` and `\\n` replacements of both
  renderers, and the export's `<strong>` wrapping.
- `Analyst`: `renderAnalystComment`.
- `Lines`: line classification, `Walk`, and the invariant and step lemmas of the walk.
- `Interactive`: `ResultDisplay` and its `flushTable`.
- `Export`: `generateExportableHtml` and `flushTableToHtml`.
- `Understanding`: `UnderstandingDisplay`.
- `App`: `formatTime`, the history update, the clause handlers, the clause text, and the
  reference resize. The class `App.Workspace` holds the state these handlers update.

Where the renderers differ:

- **Title.** The interactive renderer extracts the title (index.tsx:511-517). The export does
  not extract it; it writes every line that is exactly an analysis heading as an `<h2>` where
  it stands (index.tsx:443-444). See `Interactive.ExtractTitleSpec` and
  `Export.LineHtmlTitle`.
- **One-row tables.** The export writes a table only when at least two rows were buffered
  (index.tsx:406). The interactive renderer writes one for a single row (index.tsx:570).
  `Export.OneRowTable` shows the two outputs differing on such input.
- **Cell cleaning.** The two renderers clean cells differently. The interactive one turns
  tags and then escapes into newlines. The export turns escapes and then tags into `<br>`.
  Export cells never go through the analyst renderer.
- **Bold segments.** The tokenizer drops the `**` delimiters, so joining the segment texts
  alone does not give back the cell. The round trip holds with the delimiters put back,
  `Bold.MarkdownBoldRoundTrip`.

Where the renderers agree: every line other than an analysis heading gives the same text in
the interactive view and on the page (`Export.LinesAgree`). A run of two or more table lines
gives, in all three renderers, a table with the same trimmed header and the same number of
body rows (`Export.TablesAgree`).

## Model

| member | source | states |
|---|---|---|
| Bold.NextMatch | index.tsx:521-527 | a match found from a position starts there or later and closes with room for its `**` |
| Bold.NextMatchLeftmost | index.tsx:521-527 | `exec` finds the leftmost match: no match starts between the search position and the one found, and none at all when nothing is found |
| Bold.MatchDelimiters | index.tsx:521 | a match opens and closes with `**` |
| Bold.BoldInnerShortest | index.tsx:521 | the lazy group holds no line terminator and no `**`, so it is the shortest span |
| Bold.CloseFromComplete | index.tsx:521 | any `**` reached without crossing a line terminator is at or after the closing `**` the scanner finds |
| Bold.MatchAtComplete | index.tsx:521 | wherever the pattern can match at a position (`**`, a single-line group, `**`), the scanner matches there |
| Bold.NextMatchFinds | index.tsx:521-527 | `exec` from a position finds a match whenever the pattern can match at or after it, starting no later |
| Bold.NoMatchNoSpan | index.tsx:521 | a text where the scanner matches nowhere holds no text the pattern can match |
| Bold.RenderMarkdownBold | index.tsx:520-540 | the loop returns the tokenizer's segments, or the text itself when there are none |
| Bold.PushMatch | index.tsx:527-532 | one loop pass pushes the plain text before the match (only when non-empty), then the group, and resumes after the closing `**` |
| Bold.PushTail | index.tsx:534-539 | the plain tail is pushed when text is left, and an empty result becomes `[text]` |
| Bold.SegmentsRoundTrip | index.tsx:520-540 | the segments from any position, with `**` put back around bold ones, are the text from that position |
| Bold.MarkdownBoldRoundTrip | index.tsx:520-540 | putting `**` back around every bold segment gives back the input: nothing lost, duplicated or reordered |
| Bold.SegmentsWellFormed | index.tsx:520-540 | the segments are well formed, and empty exactly when the position is at the end |
| Bold.MarkdownBoldWellFormed | index.tsx:520-540 | bold spans are shortest and single-line; plain runs are non-empty, hold no bold span, and never follow each other; the empty text gives `[""]`. These properties alone do not force leftmost matching, which `Bold.NextMatchLeftmost` states |
| Cells.SpacesFrom | index.tsx:582 | the greedy `\s*` ends at the first non-space |
| Cells.BreakAt | index.tsx:582 | a tag match has at least four characters and lies within the text |
| Cells.BreakAtSound | index.tsx:582 | what the scanner matches is a line-break tag in full |
| Cells.BreakAtComplete | index.tsx:582 | every tag at the start of the text is matched, with its whole length |
| Cells.ReplaceBreaksNoBreak | index.tsx:582 | text with no tag is unchanged by the tag replacement |
| Cells.ReplaceBreaksTag | index.tsx:582 | a tag at the front is replaced as a whole, and scanning resumes right after it |
| Cells.ReplaceEscapesSplit | index.tsx:582 | every backslash-n is replaced wherever it stands, and the text on either side is replaced on its own, whatever it ends or starts with |
| Cells.ReplaceEscapesComplete | index.tsx:420 | no backslash-n is left after replacing with a newline or `<br>` |
| Cells.ReplaceEscapesNoEscape | index.tsx:582 | text with no backslash-n is unchanged |
| Cells.InteractiveCellNoEscape | index.tsx:582 | a cleaned interactive cell holds no backslash-n |
| Cells.InteractiveCellPlain | index.tsx:582 | a trimmed cell without tags or escapes is shown as it is |
| Cells.ExportCellSpans | index.tsx:419-422 | the export cell's `<strong>` spans are the bold segments of the cleaned text, which they write back to |
| Analyst.FirstLevel | index.tsx:555-564 | a level found is a prefix of the first line |
| Analyst.ClassNamesDistinct | index.tsx:548-553 | each level has its own badge class |
| Analyst.AtMostOneLevel | index.tsx:548-553 | no line starts with two different levels |
| Analyst.FirstLevelFinds | index.tsx:555-564 | the search finds any level the line starts with |
| Analyst.ClassifyBadge | index.tsx:542-566 | a cell gets a level's badge exactly when its trimmed, asterisk-free first line starts with that level, whatever the order tried |
| Analyst.ClassifyComment | index.tsx:542-566 | a cell is shown as plain commentary exactly when its first line starts with no level, and the commentary is the whole cell with its asterisks removed |
| Analyst.ClassifyNoStars | index.tsx:543-546 | nothing shown holds an asterisk, and the badge line holds no newline |
| Analyst.BadgeKeepsText | index.tsx:543-546 | the badge is the trimmed first line, and the first line, newline and rest rebuild the asterisk-free cell |
| Lines.RowCellsCount | index.tsx:436 | a row has one cell fewer than pipes, and no cell holds a pipe |
| Lines.RowCellsRebuild | index.tsx:436 | pipes around the joined cells give back the trimmed row |
| Lines.TrimCells | index.tsx:576 | each header cell is trimmed |
| Lines.LeadingRowsMaximal | index.tsx:432-437 | the run of buffered rows is maximal: all table lines, then a non-table line or the end |
| Lines.StepStart | index.tsx:400-403 | the initial empty output and buffer satisfy the walk invariant |
| Lines.StepRow | index.tsx:434-437 | buffering a table line's cells keeps the invariant |
| Lines.StepText | index.tsx:438-449 | flushing the open table and emitting the line's blocks keeps the invariant with an empty buffer |
| Lines.StepEnd | index.tsx:452 | the final flush completes the walk |
| Lines.WalkAppend | index.tsx:432-452 | after a non-table line, the walk of joined text is the two walks one after the other |
| Lines.WalkNoTables | index.tsx:432-452 | text without table lines is walked line by line |
| Lines.WalkTableCount | index.tsx:432-452 | when each run makes one table (or only runs of two rows or more do) and no other line makes one, the walk holds one table per such run, with runs counted by the index where they start |
| Lines.RunsTable | index.tsx:432-437 | lines that open with a run hold that run, counted unless too short, and then the runs after it |
| Lines.RunsText | index.tsx:438-449 | a non-table line starts no run, and the runs after it are all there are |
| Lines.LongRunsFewer | index.tsx:406 | counting only runs of two rows or more counts no more runs |
| Interactive.FirstRealLine | index.tsx:511 | the line found is not blank |
| Interactive.FirstRealLineFirst | index.tsx:511 | every line before it is blank, and all are blank when none is found |
| Interactive.TitleIndexOf | index.tsx:514 | `indexOf` finds the title line at its own index, since no earlier line equals it |
| Interactive.ExtractTitleSpec | index.tsx:511-517 | the title is an analysis heading exactly when the first non-blank line trims to one, and it is then that trimmed line; then only the lines after it are walked, otherwise "Analysis Result" and all the content |
| Interactive.RejoinedWalk | index.tsx:515 | joining the remaining lines and splitting again changes nothing the walk sees |
| Interactive.ResultDisplay | index.tsx:503-617 | the title and elements are the extracted title and the walk of the rest, with the interactive emitters |
| Interactive.RenderLine | index.tsx:610-614 | a line outside a table adds its heading or paragraph, or nothing when blank |
| Interactive.FlushTable | index.tsx:569-597 | the open table, if any, is emitted as one block, and the buffer is emptied |
| Interactive.RenderTableRow | index.tsx:580-590 | a body row renders cell by cell, in order |
| Interactive.RenderTableCell | index.tsx:581-587 | a cell is cleaned, then classified in an analyst column and tokenized elsewhere |
| Interactive.TableShape | index.tsx:569-597 | one table: trimmed header, a body of every row after the second, commentary exactly in analyst columns, tokenized cells writing back to the cleaned cell |
| Interactive.LineBlocksSpec | index.tsx:608-614 | a blank line gives nothing, a `**…**` line a heading, any other a paragraph, with asterisks removed |
| Interactive.TablesPerRun | index.tsx:599-616 | one table per maximal run of table lines, a run of one row included |
| Export.HeaderCells | index.tsx:412 | one header cell per header |
| Export.DataCells | index.tsx:418-424 | one data cell per cell |
| Export.GenerateExportableHtml | index.tsx:399-480 | the page is the fixed wrapper around the walk's fragments joined by newlines |
| Export.WriteParts | index.tsx:432-452 | the fragments are the walk with the export emitters |
| Export.WriteLine | index.tsx:443-449 | an analysis heading gives `<h2>`, a `**…**` line `<h3>`, any other non-blank line `<p>` |
| Export.FlushTableToHtml | index.tsx:405-430 | the table is written only with two rows or more, and the buffer is emptied |
| Export.WriteHeaderCells | index.tsx:412 | the header loop writes the header cells |
| Export.WriteBodyRows | index.tsx:416-426 | the body loop writes every row |
| Export.WriteDataCells | index.tsx:418-424 | the cell loop writes every cell |
| Export.TableWritten | index.tsx:406 | a table is written exactly when two or more rows were buffered |
| Export.BodyRowCount | index.tsx:405-430 | a run of N+2 rows is written with N body rows |
| Export.HeaderCellsNone | index.tsx:412 | no header cell is a short part such as `<tr>` or `<table>` |
| Export.DataCellsNone | index.tsx:418-424 | no data cell is a short part such as `<tr>` or `<table>` |
| Export.HeaderCellsAt | index.tsx:412 | header cell k is header k, trimmed, between `<th>` and `</th>` |
| Export.DataCellsAt | index.tsx:418-423 | data cell k is cell k of the row, cleaned, between `<td>` and `</td>` |
| Export.FixedParts | index.tsx:409-427 | the fixed parts of a written table open one table and no row |
| Export.BodyHtmlNoTable | index.tsx:416-426 | the body opens no table |
| Export.TableHtmlTables | index.tsx:405-430 | a buffered run is written as exactly one table with two rows or more, and as none otherwise |
| Export.LineHtmlNoTable | index.tsx:443-449 | a line outside a table opens no table |
| Export.TablesPerRun | index.tsx:432-452 | the page holds one table per maximal run of at least two table lines, so never more tables than the interactive view |
| Export.TitleNoStars | index.tsx:444 | an analysis heading holds no asterisk |
| Export.LinesAgree | index.tsx:443-449 | outside tables, page and interactive view agree on every line but an analysis heading: heading blocks become `<h3>`, paragraphs `<p>`, same text; an analysis heading is `<h2>` on the page and a paragraph on screen |
| Export.TablesAgree | index.tsx:405-430 | a run of two or more table lines gives, in all three renderers, the same trimmed header and the same number of body rows; each page header cell wraps the interactive header cell |
| Export.BodyHtmlRows | index.tsx:416-426 | each body row opens exactly one `<tr>` |
| Export.LineHtmlTitle | index.tsx:443-444 | a line gives `<h2>` exactly when it trims to an analysis heading, wherever it stands |
| Export.OneRowTable | index.tsx:406 | a one-row table: the export writes nothing, the interactive view a header-only table |
| Understanding.Inner | index.tsx:683 | `slice(2, -2)` is the middle of a string of four characters or more, and empty otherwise |
| Understanding.TrimRows | index.tsx:661 | every body cell is trimmed, row by row, with the row count kept |
| Understanding.UnderstandingDisplay | index.tsx:641-692 | the elements are the walk with the summary's emitters |
| Understanding.RenderLine | index.tsx:682-685 | a line outside a table adds its heading or paragraph, or nothing when blank |
| Understanding.FlushTable | index.tsx:649-668 | the open table, if any, is emitted as one block, and the buffer is emptied |
| Understanding.TableShape | index.tsx:649-668 | one table: trimmed header, every row after the second with each cell trimmed |
| Understanding.LineBlocksSpec | index.tsx:682-685 | blank gives nothing; a `**…**` line is a heading, its inner text when four characters or longer; otherwise a paragraph of the trimmed line |
| Understanding.TablesPerRun | index.tsx:671-689 | one table per maximal run of table lines, so as many tables as the interactive view for the same lines |
| App.FormatTimeReadBack | index.tsx:811-815 | the label reads back as minutes, colon, two-digit seconds below 60, with minutes × 60 + seconds the total |
| App.FormatTimeShort | index.tsx:811-815 | below 100 minutes the label has five characters |
| App.PaddedValue | index.tsx:812-813 | padding with zeros keeps a digit string and its value |
| App.TwoDigits | index.tsx:813 | seconds take at most two digits |
| App.RecentSuffix | index.tsx:1009-1016 | the history is the last ten saved analyses, or all when fewer |
| App.RecentAppend | index.tsx:1009-1016 | copy, shift when ten are kept, then push gives the last ten once the new analysis is saved |
| App.Workspace.SaveToHistory | index.tsx:1009-1016 | the oldest entry is dropped when ten are kept, the new entry appended, and the history stays the ten most recent |
| App.Resized | index.tsx:775-777 | the new list has the chosen length |
| App.ResizedKeeps | index.tsx:775-777 | references that stay keep their contents, and new ones are empty |
| App.ResizedSame | index.tsx:775-777 | choosing the current count changes nothing |
| App.ResizedTwice | index.tsx:772-781 | shrinking loses the dropped references: a later enlargement adds empty ones |
| App.Workspace.ResizeReferences | index.tsx:772-781 | no choice clears the list; otherwise it is rebuilt at the chosen length |
| App.NonBlankSpec | index.tsx:915-916 | the kept clauses are exactly the non-blank clauses: each kept one is a non-blank clause, every non-blank clause is kept, and some are kept exactly when `some` holds |
| App.NonBlankAppend | index.tsx:916 | the filter works part by part, so kept clauses stay in their order |
| App.NonBlankOne | index.tsx:916 | one clause is kept exactly when it is not blank |
| App.NonBlankAll | index.tsx:916 | a list of non-blank clauses is kept whole |
| App.Numbered | index.tsx:916 | one numbered line per kept clause |
| App.NumberedOneLine | index.tsx:916 | numbering keeps a one-line clause on one line |
| App.ClausesTextLines | index.tsx:915-916 | when no clause holds a newline, the clause text has one line per non-blank clause: number, dot, space, trimmed clause |
| App.Workspace.constructor | index.tsx:730-747 | no history or references, and three empty clauses |
| App.Workspace.ChangeClause | index.tsx:855-859 | the clause at the index is replaced and nothing else changes |
| App.Workspace.AddClause | index.tsx:861-863 | an empty clause is appended |
| App.Workspace.RemoveClause | index.tsx:865-869 | the clause at the index is removed, and the others keep their order; nothing is removed when only one clause is left or the index is outside the list |
| Text.JoinSplit | index.tsx:514-515 | joining the pieces of a split gives back the string |
| Text.SplitJoin | index.tsx:514-515 | splitting lines without separators after joining them gives them back |
| Text.RemoveAll | index.tsx:543 | the removal leaves no asterisk, shortens the text by their count, and keeps every other character |
| Text.RemoveAllAppend | index.tsx:543 | removal works part by part, so the characters kept stay in their order |
| Text.RemoveAllOne | index.tsx:543 | one character is dropped exactly when it is the one removed |
| Text.RemoveAllNone | index.tsx:611 | text without the character is left alone |
| Text.Split | index.tsx:504 | a split has one more piece than separators, and no piece holds one |
| Text.ToLower | index.tsx:583 | each ASCII capital is lowered and nothing else changes |
| Text.NatToStringValue | index.tsx:812-813 | the decimal string reads back as the number |

## Left out

- React itself is not modelled: elements, keys, JSX fragments, and the layout around the
  result card. The model stops at the list of blocks each component would render.
- Calls to the language model are left out, along with prompts, chat, file reading, the
  timer interval, `localStorage`, `Date.now`, `window.open` and the `Blob` download. These
  are I/O and outside the core.
- The nine style rules inside the exported page's `<style>` element are left out. The rest
  of the wrapper is kept character for character.
- The regular expressions are modelled by functions, not by a regex engine: the bold pattern
  by the scanner `Bold.NextMatch`, the tag pattern `<br\s*\/?>` by the scanner `Cells.BreakAt`,
  the escape pattern `/\\n/g` by `Cells.ReplaceEscapes`, the asterisk pattern `/\*/g` by
  `Text.RemoveAll`, and the title pattern by `Lines.IsAnalysisTitle`. The lemmas of the two
  scanners state the language each recognizes.
- `trim` and the `\s` of the tag pattern `<br\s*\/?>` (`Cells.SpacesFrom`, `Cells.BreakAt`) match
  only ASCII whitespace, and `toLowerCase` lowers only ASCII letters. The
  Unicode spaces and letters JavaScript also handles are not modelled.
- The prompt parts stored with each history entry, and `generateHistoryName`, are left out.
  They depend on the form state and the clock.
- The reference file and text change handlers (index.tsx:828-852) are left out. Each only
  replaces one field of one entry: the file handler after an asynchronous file read, the text
  handler with the text typed.
- App.Workspace.ChangeClause: requires an index inside the list. The handler is only
  reachable from a rendered clause, and a JavaScript write past the end would leave holes,
  which the model does not represent.
- App.Workspace.ResizeReferences: accepts any count. The page only offers 1, 2 or 3.
- No HTML escaping is modelled, because the source performs none. Text from the reply is
  copied into the exported page as it is.
- App.Workspace: `saved`, the list of every analysis saved since load, is a ghost field that
  only serves to state the invariant of the history. The page itself keeps the history
  alone.

=== FILE: analyst.dfy ===
/** `renderAnalystComment` (index.tsx:542-566): the cells of an analyst column. All
    asterisks are removed; if the trimmed first line starts with one of four support levels,
    tried in a fixed order, that line becomes a badge of the level's class and the other lines
    follow it; otherwise the asterisk-free text is shown as it is. */
module Analyst {
  import opened Text

  /** The support levels, in the order they are tried. */
  datatype Label = InferentiallySupported | PartiallySupported | NotSupported | Supported

  /** What an analyst cell shows. */
  datatype Commentary =
    | Badge(level: Label, line: string, rest: string)
    | Comment(text: string)

  function LabelText(l: Label): string {
    match l
    case InferentiallySupported => "Inferentially Supported"
    case PartiallySupported => "Partially Supported"
    case NotSupported => "Not Supported"
    case Supported => "Supported"
  }

  /** The CSS class of the badge, after `support-level`. */
  function ClassName(l: Label): string {
    match l
    case InferentiallySupported => "inferentially-supported"
    case PartiallySupported => "partially-supported"
    case NotSupported => "not-supported"
    case Supported => "supported"
  }

  /** Each level has its own badge class (index.tsx:549-552, 558): the badge tells the levels
      apart. */
  lemma ClassNamesDistinct(l1: Label, l2: Label)
    ensures ClassName(l1) == ClassName(l2) <==> l1 == l2
  {
    assert |ClassName(l1)| == |ClassName(l2)| ==> l1 == l2;
  }

  const Levels: seq<Label> := [InferentiallySupported, PartiallySupported, NotSupported, Supported]

  /** The first level, from `k` on in `Levels`, that `line` starts with. */
  function FirstLevel(line: string, k: nat): (r: Option<Label>)
    requires k <= |Levels|
    decreases |Levels| - k
    ensures r.Some? ==> StartsWith(line, LabelText(r.value))
  {
    if k == |Levels| then None
    else if StartsWith(line, LabelText(Levels[k])) then Some(Levels[k])
    else FirstLevel(line, k + 1)
  }

  /** A column is an analyst column when its header, trimmed and lower-cased, contains
      "analyst"; a cell beyond the last header has no header and is never one. */
  predicate IsAnalystColumn(headers: seq<string>, j: nat) {
    j < |headers| && Contains(ToLower(Trim(headers[j])), "analyst")
  }

  /** `renderAnalystComment(cell)`. */
  function Classify(cell: string): Commentary {
    var text := RemoveAll(cell, '*');
    var lines := Split(text, '\n');
    var first := Trim(lines[0]);
    match FirstLevel(first, 0)
    case Some(l) => Badge(l, first, Join(lines[1..], '\n'))
    case None => Comment(text)
  }

  /** Nothing shown holds an asterisk, and the badge is a single line. */
  lemma ClassifyNoStars(cell: string)
    ensures Classify(cell).Badge? ==> '*' !in Classify(cell).line && '*' !in Classify(cell).rest && '\n' !in Classify(cell).line
    ensures Classify(cell).Comment? ==> '*' !in Classify(cell).text
  {
    var text := RemoveAll(cell, '*');
    var lines := Split(text, '\n');
    SplitSub(text, '\n', '*');
    JoinStars(lines[1..], '\n');
    TrimSub(lines[0], '*');
    TrimSub(lines[0], '\n');
  }

  /** A character missing from the text is missing from every piece of its split. */
  lemma {:induction false} SplitSub(s: string, sep: char, c: char)
    requires c !in s
    ensures forall k :: 0 <= k < |Split(s, sep)| ==> c !in Split(s, sep)[k]
  {
    if s != [] {
      SplitSub(s[1..], sep, c);
    }
  }

  lemma {:induction false} JoinStars(parts: seq<string>, sep: char)
    requires forall k :: 0 <= k < |parts| ==> '*' !in parts[k]
    requires sep != '*'
    ensures '*' !in Join(parts, sep)
    decreases |parts|
  {
    if |parts| > 1 {
      JoinStars(parts[1..], sep);
    }
  }

  /** No two levels can both be a prefix of the same line: their first letters differ. */
  lemma AtMostOneLevel(line: string, a: Label, b: Label)
    requires StartsWith(line, LabelText(a)) && StartsWith(line, LabelText(b))
    ensures a == b
  {
    assert line[0] == LabelText(a)[0] && line[0] == LabelText(b)[0];
  }

  lemma {:induction false} FirstLevelFinds(line: string, k: nat, l: Label)
    requires k <= |Levels|
    requires l in Levels[k..] && StartsWith(line, LabelText(l))
    decreases |Levels| - k
    ensures FirstLevel(line, k) == Some(l)
  {
    if StartsWith(line, LabelText(Levels[k])) {
      AtMostOneLevel(line, Levels[k], l);
    } else {
      assert l in Levels[k + 1..];
      FirstLevelFinds(line, k + 1, l);
    }
  }

  /** The order in which the levels are tried does not matter: a cell gets the badge of a
      level exactly when its trimmed, asterisk-free first line starts with that level. */
  lemma ClassifyBadge(cell: string, l: Label)
    ensures var first := Trim(Split(RemoveAll(cell, '*'), '\n')[0]);
      Classify(cell).Badge? && Classify(cell).level == l <==> StartsWith(first, LabelText(l))
  {
    var first := Trim(Split(RemoveAll(cell, '*'), '\n')[0]);
    if StartsWith(first, LabelText(l)) {
      assert l in Levels[0..];
      FirstLevelFinds(first, 0, l);
    }
  }

  /** A cell whose first line starts with no level is shown as its asterisk-free text. */
  lemma ClassifyComment(cell: string)
    ensures var first := Trim(Split(RemoveAll(cell, '*'), '\n')[0]);
      && (Classify(cell).Comment? <==> forall l: Label :: !StartsWith(first, LabelText(l)))
      && (Classify(cell).Comment? ==> Classify(cell).text == RemoveAll(cell, '*'))
  {
    var first := Trim(Split(RemoveAll(cell, '*'), '\n')[0]);
    if Classify(cell).Comment? {
      forall l: Label ensures !StartsWith(first, LabelText(l)) {
        ClassifyBadge(cell, l);
      }
    }
  }

  /** A badge keeps the text: the asterisk-free cell is the untrimmed badge line, then, if the
      cell has more than one line, a newline and the rest. */
  lemma BadgeKeepsText(cell: string)
    requires Classify(cell).Badge?
    ensures var text := RemoveAll(cell, '*');
      var lines := Split(text, '\n');
      Trim(lines[0]) == Classify(cell).line &&
      text == lines[0] + (if |lines| > 1 then "\n" + Classify(cell).rest else "")
  {
    var text := RemoveAll(cell, '*');
    var lines := Split(text, '\n');
    JoinSplit(text, '\n');
    if |lines| > 1 {
      assert Join(lines, '\n') == lines[0] + "\n" + Join(lines[1..], '\n');
    }
  }
}

=== FILE: app.dfy ===
/** The state helpers of the `App` component (index.tsx): the elapsed-time label, the analysis
    history capped at ten entries, the list of manually broken claim clauses, the list of prior
    art references resized to the chosen combination, and the numbered clause text put into the
    prompt. React's state setters become a `Workspace` object whose methods replace its fields. */
module App {
  import opened Text

  predicate IsDigits(s: string) {
    forall i :: 0 <= i < |s| ==> '0' <= s[i] <= '9'
  }

  /** `formatTime` (index.tsx:811-815): whole minutes and the remaining seconds, each written
      in decimal and padded with zeros to two characters, joined by a colon. */
  function FormatTime(totalSeconds: nat): string {
    PadZeros(NatToString(totalSeconds / 60), 2) + ":" + PadZeros(NatToString(totalSeconds % 60), 2)
  }

  /** A number below 100 takes at most two digits. */
  lemma TwoDigits(n: nat)
    requires n < 100
    ensures |NatToString(n)| <= 2
  {
    if n >= 10 {
      assert NatToString(n) == NatToString(n / 10) + [(48 + n % 10) as char];
    }
  }

  /** Zero padding keeps the value of a number's digits. */
  lemma PaddedValue(n: nat, width: nat)
    ensures IsDigits(PadZeros(NatToString(n), width))
    ensures DigitsValue(PadZeros(NatToString(n), width)) == n
  {
    var s := NatToString(n);
    var r := PadZeros(s, width);
    NatToStringValue(n);
    if |s| < width {
      assert r == seq(width - |s|, _ => '0') + s;
      LeadingZerosValue(s, width - |s|);
    } else {
      assert r == s;
    }
  }

  /** `r` reads back as a clock showing `totalSeconds`: the part before the colon is at least
      two digits worth the minutes, the two digits after it are the seconds, below 60, and
      minutes times 60 plus seconds is the total. */
  predicate ReadsBackAs(r: string, totalSeconds: nat) {
    && |r| >= 5 && r[|r| - 3] == ':'
    && IsDigits(r[..|r| - 3]) && IsDigits(r[|r| - 2..])
    && DigitsValue(r[|r| - 2..]) < 60
    && DigitsValue(r[..|r| - 3]) * 60 + DigitsValue(r[|r| - 2..]) == totalSeconds
  }

  /** The label reads back as the elapsed time. */
  lemma FormatTimeReadBack(totalSeconds: nat)
    ensures ReadsBackAs(FormatTime(totalSeconds), totalSeconds)
  {
    var m, sec := totalSeconds / 60, totalSeconds % 60;
    var minutes := PadZeros(NatToString(m), 2);
    var seconds := PadZeros(NatToString(sec), 2);
    ClockParts(m, sec);
    SplitAtColon(FormatTime(totalSeconds), minutes, seconds);
    MinutesAndSeconds(totalSeconds, m, sec);
  }

  /** Minutes, and seconds below 60, as `formatTime` pads them, read back. */
  lemma ClockParts(m: nat, sec: nat)
    requires sec < 60
    ensures var minutes := PadZeros(NatToString(m), 2);
      |minutes| >= 2 && IsDigits(minutes) && DigitsValue(minutes) == m
    ensures var seconds := PadZeros(NatToString(sec), 2);
      |seconds| == 2 && IsDigits(seconds) && DigitsValue(seconds) == sec
  {
    TwoDigits(sec);
    PaddedValue(m, 2);
    PaddedValue(sec, 2);
  }

  lemma SplitAtColon(r: string, minutes: string, seconds: string)
    requires r == minutes + ":" + seconds
    requires |minutes| >= 2 && |seconds| == 2
    ensures |r| >= 5 && r[|r| - 3] == ':' && r[..|r| - 3] == minutes && r[|r| - 2..] == seconds
  {
    assert r[..|r| - 3] == minutes;
    assert r[|r| - 2..] == seconds;
  }

  lemma MinutesAndSeconds(total: nat, m: nat, s: nat)
    requires m == total / 60 && s == total % 60
    ensures s < 60 && m * 60 + s == total
  {
  }

  /** Below 100 minutes the label is exactly `MM:SS`. */
  lemma FormatTimeShort(totalSeconds: nat)
    requires totalSeconds < 6000
    ensures |FormatTime(totalSeconds)| == 5
  {
    TwoDigits(totalSeconds / 60);
    TwoDigits(totalSeconds % 60);
  }

  /** A saved analysis (index.tsx:190-195); the prompt parts kept with it are left out. */
  datatype HistoryEntry = HistoryEntry(id: string, name: string, result: string)

  const HistoryCap: nat := 10

  /** The last `HistoryCap` analyses of `saved`, oldest first. */
  function Recent(saved: seq<HistoryEntry>): seq<HistoryEntry> {
    if |saved| <= HistoryCap then saved else saved[|saved| - HistoryCap..]
  }

  /** The recent analyses are a suffix of all analyses, as long as the cap allows. */
  lemma RecentSuffix(saved: seq<HistoryEntry>)
    ensures |Recent(saved)| == if |saved| < HistoryCap then |saved| else HistoryCap
    ensures Recent(saved) == saved[|saved| - |Recent(saved)|..]
  {
  }

  /** Copying the recent analyses, dropping the first when there are already ten, and pushing
      the new one gives the recent analyses once the new one is saved. */
  lemma RecentAppend(saved: seq<HistoryEntry>, entry: HistoryEntry)
    ensures Recent(saved + [entry]) == (if |Recent(saved)| >= HistoryCap then Recent(saved)[1..] else Recent(saved)) + [entry]
  {
    var all := saved + [entry];
    if |saved| >= HistoryCap {
      assert all[|all| - HistoryCap..] == saved[|saved| - HistoryCap..][1..] + [entry];
    }
  }

  /** A prior art document uploaded by the user (index.tsx:184); the `File` object itself is
      represented by its name. */
  datatype Upload = Upload(name: string, base64: string, mimeType: string)

  /** A prior art reference: an optional upload and pasted text (index.tsx:185-188). */
  datatype Reference = Reference(file: Option<Upload>, text: string)

  const EmptyReference: Reference := Reference(None, "")

  /** The references after choosing `n` of them: the first `n` current references, then empty
      ones. A present reference is an object and so always passes `||`. */
  function Resized(refs: seq<Reference>, n: nat): (r: seq<Reference>)
    ensures |r| == n
  {
    seq(n, i requires 0 <= i < n => if i < |refs| then refs[i] else EmptyReference)
  }

  /** Resizing keeps what was entered in every reference that stays, and adds empty ones. */
  lemma ResizedKeeps(refs: seq<Reference>, n: nat)
    ensures forall i :: 0 <= i < n && i < |refs| ==> Resized(refs, n)[i] == refs[i]
    ensures forall i :: |refs| <= i < n ==> Resized(refs, n)[i] == EmptyReference
  {
  }

  /** Choosing the current number of references changes nothing. */
  lemma ResizedSame(refs: seq<Reference>)
    ensures Resized(refs, |refs|) == refs
  {
  }

  /** A reference dropped by a smaller choice is lost: choosing `m` and then `n` is the same as
      keeping only the first `m` references and then choosing `n`. */
  lemma ResizedTwice(refs: seq<Reference>, m: nat, n: nat)
    ensures Resized(Resized(refs, m), n) == Resized(refs[..if m < |refs| then m else |refs|], n)
  {
  }

  /** `filter(c => c.trim() !== '')`: the clauses that are not blank, in order. */
  function NonBlank(clauses: seq<string>): seq<string> {
    if clauses == [] then []
    else (if Trim(clauses[0]) != [] then [clauses[0]] else []) + NonBlank(clauses[1..])
  }

  /** `claimClauses.some(c => c.trim())`. */
  predicate HasClause(clauses: seq<string>) {
    exists k :: 0 <= k < |clauses| && Trim(clauses[k]) != []
  }

  /** `map((c, i) => `${i + 1}. ${c.trim()}`)`: numbered from one, in order. */
  function Numbered(clauses: seq<string>): (r: seq<string>)
    ensures |r| == |clauses|
  {
    seq(|clauses|, i requires 0 <= i < |clauses| => NatToString(i + 1) + ". " + Trim(clauses[i]))
  }

  /** The clause text put into the prompt (index.tsx:916). */
  function ClausesText(clauses: seq<string>): string {
    Join(Numbered(NonBlank(clauses)), '\n')
  }

  /** The kept clauses are exactly the non-blank ones: every kept clause is one of the clauses
      and is not blank, every non-blank clause is kept, and a clause list keeps one exactly
      when some clause is not blank. Their order is the subject of `NonBlankAppend`. */
  lemma {:induction false} NonBlankSpec(clauses: seq<string>)
    ensures forall k :: 0 <= k < |NonBlank(clauses)| ==> NonBlank(clauses)[k] in clauses && Trim(NonBlank(clauses)[k]) != []
    ensures forall k :: 0 <= k < |clauses| && Trim(clauses[k]) != [] ==> clauses[k] in NonBlank(clauses)
    ensures NonBlank(clauses) != [] <==> HasClause(clauses)
    ensures |NonBlank(clauses)| <= |clauses|
  {
    if clauses != [] {
      var head := if Trim(clauses[0]) != [] then [clauses[0]] else [];
      var rest := NonBlank(clauses[1..]);
      assert NonBlank(clauses) == head + rest;
      NonBlankSpec(clauses[1..]);
      forall k | 0 <= k < |head + rest| ensures (head + rest)[k] in clauses && Trim((head + rest)[k]) != [] {
        if k >= |head| {
          assert (head + rest)[k] == rest[k - |head|];
        }
      }
      forall k | 1 <= k < |clauses| && Trim(clauses[k]) != [] ensures clauses[k] in NonBlank(clauses) {
        assert clauses[k] == clauses[1..][k - 1];
      }
      if HasClause(clauses) && Trim(clauses[0]) == [] {
        var k :| 0 <= k < |clauses| && Trim(clauses[k]) != [];
        assert clauses[k] == clauses[1..][k - 1];
      }
      if HasClause(clauses[1..]) {
        var k :| 0 <= k < |clauses[1..]| && Trim(clauses[1..][k]) != [];
        assert Trim(clauses[k + 1]) != [];
      }
    }
  }

  /** The filter works clause by clause, so the kept clauses stay in their order: a
      concatenation is filtered part by part, and (`NonBlankOne`) one clause is kept exactly
      when it is not blank. */
  lemma {:induction false} NonBlankAppend(a: seq<string>, b: seq<string>)
    decreases |a|
    ensures NonBlank(a + b) == NonBlank(a) + NonBlank(b)
  {
    if a == [] {
      assert a + b == b;
    } else {
      TailAppend(a, b);
      NonBlankAppend(a[1..], b);
      AppendAssoc(if Trim(a[0]) != [] then [a[0]] else [], NonBlank(a[1..]), NonBlank(b));
    }
  }

  lemma NonBlankOne(c: string)
    ensures NonBlank([c]) == if Trim(c) != [] then [c] else []
  {
    assert [c][1..] == [];
  }

  /** A list of clauses that are all non-blank is kept whole. */
  lemma {:induction false} NonBlankAll(clauses: seq<string>)
    requires forall k :: 0 <= k < |clauses| ==> Trim(clauses[k]) != []
    ensures NonBlank(clauses) == clauses
  {
    if clauses != [] {
      NonBlankAll(clauses[1..]);
    }
  }

  /** When no clause spans several lines, the text has one line per non-blank clause: line `k`
      is the number `k + 1`, a dot, a space and the clause trimmed. */
  lemma ClausesTextLines(clauses: seq<string>)
    requires forall k :: 0 <= k < |clauses| ==> '\n' !in clauses[k]
    requires HasClause(clauses)
    ensures var lines := Split(ClausesText(clauses), '\n');
      && |lines| == |NonBlank(clauses)|
      && forall k :: 0 <= k < |lines| ==> lines[k] == NatToString(k + 1) + ". " + Trim(NonBlank(clauses)[k])
  {
    var kept := NonBlank(clauses);
    KeptOneLine(clauses);
    NumberedOneLine(kept);
    SplitJoin(Numbered(kept), '\n');
    var lines := Split(ClausesText(clauses), '\n');
    assert lines == Numbered(kept);
    forall k | 0 <= k < |lines| ensures lines[k] == NatToString(k + 1) + ". " + Trim(kept[k]) {
      assert lines[k] == Numbered(kept)[k];
    }
  }

  /** The kept clauses are some of the clauses, so none of them spans several lines either. */
  lemma KeptOneLine(clauses: seq<string>)
    requires forall k :: 0 <= k < |clauses| ==> '\n' !in clauses[k]
    requires HasClause(clauses)
    ensures NonBlank(clauses) != []
    ensures forall k :: 0 <= k < |NonBlank(clauses)| ==> '\n' !in NonBlank(clauses)[k]
  {
    NonBlankSpec(clauses);
    var kept := NonBlank(clauses);
    forall k | 0 <= k < |kept| ensures '\n' !in kept[k] {
      var j :| 0 <= j < |clauses| && clauses[j] == kept[k];
    }
  }

  /** Numbering keeps a clause on one line. */
  lemma NumberedOneLine(clauses: seq<string>)
    requires forall k :: 0 <= k < |clauses| ==> '\n' !in clauses[k]
    ensures forall k :: 0 <= k < |clauses| ==> '\n' !in Numbered(clauses)[k]
  {
    forall k | 0 <= k < |clauses| ensures '\n' !in Numbered(clauses)[k] {
      TrimSub(clauses[k], '\n');
      var digits := NatToString(k + 1);
      assert Numbered(clauses)[k] == digits + ". " + Trim(clauses[k]);
      assert '\n' !in digits;
    }
  }

  /** The state of the page that these helpers update. `saved` is every analysis saved since
      the page was loaded; only the history is kept by the page itself. */
  class Workspace {
    var history: seq<HistoryEntry>
    ghost var saved: seq<HistoryEntry>
    var claimClauses: seq<string>
    var references: seq<Reference>

    /** The history is the ten most recent analyses, and the clause list is never empty. */
    ghost predicate Valid()
      reads this
    {
      history == Recent(saved) && |claimClauses| >= 1
    }

    /** The initial state (index.tsx:730, 741, 747). */
    constructor()
      ensures Valid()
      ensures history == [] && saved == [] && claimClauses == ["", "", ""] && references == []
    {
      history := [];
      saved := [];
      claimClauses := ["", "", ""];
      references := [];
    }

    /** The history updater (index.tsx:1009-1016). */
    method SaveToHistory(newHistoryEntry: HistoryEntry)
      requires Valid()
      modifies this
      ensures Valid()
      ensures saved == old(saved) + [newHistoryEntry]
      ensures history == (if |old(history)| >= HistoryCap then old(history)[1..] else old(history)) + [newHistoryEntry]
      ensures claimClauses == old(claimClauses) && references == old(references)
    {
      var updatedHistory := history;
      if |updatedHistory| >= HistoryCap {
        updatedHistory := updatedHistory[1..];
      }
      updatedHistory := updatedHistory + [newHistoryEntry];
      RecentAppend(saved, newHistoryEntry);
      history := updatedHistory;
      saved := saved + [newHistoryEntry];
    }

    /** `handleClauseChange` (index.tsx:855-859); the index comes from the rendered list. */
    method ChangeClause(index: nat, value: string)
      requires Valid() && index < |claimClauses|
      modifies this
      ensures Valid()
      ensures claimClauses == old(claimClauses)[index := value]
      ensures history == old(history) && saved == old(saved) && references == old(references)
    {
      var newClauses := claimClauses;
      newClauses := newClauses[index := value];
      claimClauses := newClauses;
    }

    /** `handleAddClause` (index.tsx:861-863). */
    method AddClause()
      requires Valid()
      modifies this
      ensures Valid()
      ensures claimClauses == old(claimClauses) + [""]
      ensures history == old(history) && saved == old(saved) && references == old(references)
    {
      claimClauses := claimClauses + [""];
    }

    /** `handleRemoveClause` (index.tsx:865-869): the last remaining clause is never removed,
        and an index outside the list removes nothing. */
    method RemoveClause(index: int)
      requires Valid()
      modifies this
      ensures Valid()
      ensures claimClauses == if |old(claimClauses)| > 1 && 0 <= index < |old(claimClauses)|
        then old(claimClauses)[..index] + old(claimClauses)[index + 1..]
        else old(claimClauses)
      ensures history == old(history) && saved == old(saved) && references == old(references)
    {
      if |claimClauses| > 1 {
        var kept: seq<string> := [];
        for i := 0 to |claimClauses|
          invariant kept == if 0 <= index < i then claimClauses[..index] + claimClauses[index + 1..i] else claimClauses[..i]
        {
          if i != index {
            kept := kept + [claimClauses[i]];
          }
        }
        assert claimClauses[..|claimClauses|] == claimClauses;
        claimClauses := kept;
      }
    }

    /** The effect of choosing the number of prior art references (index.tsx:772-781): no
        choice clears the list, otherwise it is rebuilt at the chosen length. */
    method ResizeReferences(priorArtOption: Option<nat>)
      requires Valid()
      modifies this
      ensures Valid()
      ensures references == if priorArtOption.None? then [] else Resized(old(references), priorArtOption.value)
      ensures history == old(history) && saved == old(saved) && claimClauses == old(claimClauses)
    {
      if priorArtOption.None? {
        references := [];
      } else {
        var length := priorArtOption.value;
        var newRefs: seq<Reference> := [];
        for i := 0 to length
          invariant |newRefs| == i
          invariant forall k :: 0 <= k < i ==> newRefs[k] == if k < |references| then references[k] else EmptyReference
        {
          var ref := if i < |references| then references[i] else EmptyReference;
          newRefs := newRefs + [ref];
        }
        references := newRefs;
      }
    }
  }
}

=== FILE: bold.dfy ===
/** The bold-span tokenizer `renderMarkdownBold` (index.tsx:520-540) and the scanner that
    stands in for its regular expression: two asterisks, the shortest run of characters
    other than line terminators, two asterisks. Matches are searched left to right and
    never overlap, as a global regular expression does with `exec` and `lastIndex`. */
module Bold {
  import opened Text

  /** A run of a rendered line: plain text, or the inner text of a `**…**` span. */
  datatype Segment = Plain(text: string) | Bold(text: string)

  /** One match of the bold pattern: the opening `**` at `start`, the closing one at `close`. */
  datatype Match = Match(start: nat, close: nat)

  /** The characters `.` does not match in a JavaScript regular expression. */
  predicate IsLineTerminator(c: char) {
    c == '\n' || c == '\r' || c as int == 0x2028 || c as int == 0x2029
  }

  predicate StarsAt(s: string, k: int) {
    0 <= k && k + 1 < |s| && s[k] == '*' && s[k + 1] == '*'
  }

  /** The lazy `(.*?)\*\*` part: the first `**` at or after `k` that is reached without
      crossing a line terminator. */
  function CloseFrom(s: string, k: nat): (r: Option<nat>)
    requires k <= |s|
    decreases |s| - k
    ensures r.Some? ==> k <= r.value && r.value + 2 <= |s|
  {
    if StarsAt(s, k) then Some(k)
    else if k < |s| && !IsLineTerminator(s[k]) then CloseFrom(s, k + 1)
    else None
  }

  /** The closing `**` is the first one, and no line terminator comes before it. */
  lemma {:induction false} CloseFromFirst(s: string, k: nat)
    requires k <= |s|
    decreases |s| - k
    ensures CloseFrom(s, k).Some? ==> StarsAt(s, CloseFrom(s, k).value)
    ensures CloseFrom(s, k).Some? ==> forall m :: k <= m < CloseFrom(s, k).value ==> !IsLineTerminator(s[m]) && !StarsAt(s, m)
  {
    if !StarsAt(s, k) && k < |s| && !IsLineTerminator(s[k]) {
      CloseFromFirst(s, k + 1);
    }
  }

  /** The other direction: any `**` reached from `k` without crossing a line terminator is at
      or after the one found. */
  lemma {:induction false} CloseFromComplete(s: string, k: nat, j: nat)
    requires k <= j && StarsAt(s, j)
    requires forall m :: k <= m < j ==> !IsLineTerminator(s[m])
    decreases j - k
    ensures CloseFrom(s, k).Some? && CloseFrom(s, k).value <= j
  {
    if !StarsAt(s, k) {
      CloseFromComplete(s, k + 1, j);
    }
  }

  /** A text the bold pattern can match from `i`: `**` at `i`, `**` at `j`, and no line
      terminator between them. */
  predicate Span(s: string, i: nat, j: nat) {
    && StarsAt(s, i) && i + 2 <= j && StarsAt(s, j)
    && forall m :: i + 2 <= m < j ==> !IsLineTerminator(s[m])
  }

  /** Where the bold pattern matches when tried at position `i`: the closing `**`. */
  function MatchAt(s: string, i: nat): (r: Option<nat>)
    requires i <= |s|
    ensures r.Some? ==> i + 2 <= r.value && r.value + 2 <= |s|
  {
    if StarsAt(s, i) then CloseFrom(s, i + 2) else None
  }

  /** `regex.exec(text)` with `regex.lastIndex == from`: the leftmost match at or after `from`. */
  function NextMatch(s: string, from: nat): (r: Option<Match>)
    requires from <= |s|
    decreases |s| - from
    ensures r.Some? ==> from <= r.value.start && r.value.start + 2 <= r.value.close && r.value.close + 2 <= |s|
  {
    if from == |s| then None
    else match MatchAt(s, from)
      case Some(close) => Some(Match(from, close))
      case None => NextMatch(s, from + 1)
  }

  /** The match found is the leftmost one; when none is found, there is none at all. */
  lemma {:induction false} NextMatchLeftmost(s: string, from: nat)
    requires from <= |s|
    decreases |s| - from
    ensures NextMatch(s, from).Some? ==> MatchAt(s, NextMatch(s, from).value.start) == Some(NextMatch(s, from).value.close)
    ensures NextMatch(s, from).Some? ==> forall m :: from <= m < NextMatch(s, from).value.start ==> MatchAt(s, m).None?
    ensures NextMatch(s, from).None? ==> forall m :: from <= m <= |s| ==> MatchAt(s, m).None?
  {
    if from < |s| && MatchAt(s, from).None? {
      NextMatchLeftmost(s, from + 1);
    }
  }

  /** Every span the pattern can match at `i` makes the scanner match there, closing at the
      first `**` that span allows. */
  lemma MatchAtComplete(s: string, i: nat, j: nat)
    requires Span(s, i, j)
    ensures MatchAt(s, i).Some? && MatchAt(s, i).value <= j
  {
    CloseFromComplete(s, i + 2, j);
  }

  /** A span anywhere from `from` on is found: `exec` returns a match that starts no later. */
  lemma NextMatchFinds(s: string, from: nat, i: nat, j: nat)
    requires from <= i && Span(s, i, j)
    ensures NextMatch(s, from).Some? && NextMatch(s, from).value.start <= i
  {
    NextMatchLeftmost(s, from);
    MatchAtComplete(s, i, j);
  }

  /** A text where the scanner matches nowhere holds no span at all. */
  lemma NoMatchNoSpan(t: string, i: nat, j: nat)
    requires NoMatch(t)
    ensures !Span(t, i, j)
  {
    if Span(t, i, j) {
      MatchAtComplete(t, i, j);
    }
  }

  /** A match found from `last` opens and closes with `**`. */
  lemma MatchDelimiters(s: string, last: nat, i: nat, j: nat)
    requires last <= |s| && NextMatch(s, last) == Some(Match(i, j))
    ensures StarsAt(s, i) && StarsAt(s, j)
  {
    NextMatchLeftmost(s, last);
    CloseFromFirst(s, i + 2);
  }

  /** The segments the tokenizer produces from position `last` on. */
  function Segments(s: string, last: nat): seq<Segment>
    requires last <= |s|
    decreases |s| - last
  {
    match NextMatch(s, last)
    case None => if last < |s| then [Plain(s[last..])] else []
    case Some(m) => MatchSegments(s, last, m.start, m.close) + Segments(s, m.close + 2)
  }

  /** What one match found from `last` contributes: the plain text before it, if any, and the
      inner text of the span. */
  function MatchSegments(s: string, last: nat, i: nat, j: nat): seq<Segment>
    requires last <= i && i + 2 <= j <= |s|
  {
    (if i > last then [Plain(s[last..i])] else []) + [Bold(s[i + 2..j])]
  }

  /** One step of the tokenizer: the plain text before the next match, the match, the rest. */
  lemma SegmentsUnfold(s: string, last: nat, i: nat, j: nat)
    requires last <= i && i + 2 <= j && j + 2 <= |s|
    requires NextMatch(s, last) == Some(Match(i, j))
    ensures Segments(s, last) == MatchSegments(s, last, i, j) + Segments(s, j + 2)
  {
  }

  /** The last step of the tokenizer: no match is left, only the plain tail. */
  lemma SegmentsEnd(s: string, last: nat)
    requires last <= |s| && NextMatch(s, last).None?
    ensures Segments(s, last) == if last < |s| then [Plain(s[last..])] else []
  {
  }

  /** What `renderMarkdownBold` returns: the segments, or the text itself when there are none. */
  function MarkdownBold(s: string): seq<Segment> {
    var parts := Segments(s, 0);
    if |parts| > 0 then parts else [Plain(s)]
  }

  /** Writes segments back out, bold ones between `open` and `close`. With `<strong>` and
      `</strong>` this is the export's `replace(…, '<strong>$1</strong>')`. */
  function Wrap(segs: seq<Segment>, open: string, close: string): string {
    if segs == [] then "" else Piece(segs[0], open, close) + Wrap(segs[1..], open, close)
  }

  function Piece(seg: Segment, open: string, close: string): string {
    match seg
    case Plain(t) => t
    case Bold(t) => open + t + close
  }

  /** The `renderMarkdownBold` loop: `exec` until no match is left, pushing the plain text
      before each match and the match's group, then the plain tail. */
  method RenderMarkdownBold(text: string) returns (parts: seq<Segment>)
    ensures parts == MarkdownBold(text)
  {
    parts := [];
    var lastIndex := 0;
    var m := NextMatch(text, 0);
    while m.Some?
      invariant lastIndex <= |text|
      invariant m == NextMatch(text, lastIndex)
      invariant Pushed(text, parts, lastIndex)
      decreases |text| - lastIndex
    {
      parts, lastIndex := PushMatch(parts, text, lastIndex, m.value);
      m := NextMatch(text, lastIndex);
    }
    parts := PushTail(parts, text, lastIndex);
  }

  /** After the loop: the plain tail, if any, and the whole text when nothing was pushed. */
  method PushTail(parts: seq<Segment>, text: string, lastIndex: nat) returns (parts': seq<Segment>)
    requires lastIndex <= |text| && NextMatch(text, lastIndex).None?
    requires Pushed(text, parts, lastIndex)
    ensures parts' == MarkdownBold(text)
  {
    SegmentsEnd(text, lastIndex);
    parts' := parts;
    if lastIndex < |text| {
      parts' := parts' + [Plain(text[lastIndex..])];
    }
    if |parts'| == 0 {
      parts' := [Plain(text)];
    }
  }

  /** One pass of the loop body: the plain text before the match, if any, then its group;
      the search resumes after the closing `**`. */
  method PushMatch(parts: seq<Segment>, text: string, lastIndex: nat, m: Match) returns (parts': seq<Segment>, next: nat)
    requires lastIndex <= |text| && NextMatch(text, lastIndex) == Some(m)
    requires Pushed(text, parts, lastIndex)
    ensures lastIndex < next == m.close + 2 <= |text|
    ensures parts' == parts + (if m.start > lastIndex then [Plain(text[lastIndex..m.start])] else []) + [Bold(text[m.start + 2..m.close])]
    ensures Pushed(text, parts', next)
  {
    var i, j := m.start, m.close;
    parts' := parts;
    if i > lastIndex {
      parts' := parts' + [Plain(text[lastIndex..i])];
    }
    parts' := parts' + [Bold(text[i + 2..j])];
    SegmentsStep(text, lastIndex, i, j, parts, parts');
    next := j + 2;
  }

  /** The loop invariant: what was pushed, followed by the segments still to come, is all of them. */
  ghost predicate Pushed(s: string, parts: seq<Segment>, last: nat)
    requires last <= |s|
  {
    parts + Segments(s, last) == Segments(s, 0)
  }

  /** One pass of the loop keeps "pushed so far, then what is left to tokenize" unchanged. */
  lemma SegmentsStep(s: string, last: nat, i: nat, j: nat, parts: seq<Segment>, parts': seq<Segment>)
    requires last <= |s| && NextMatch(s, last) == Some(Match(i, j))
    requires Pushed(s, parts, last)
    requires last <= i && i + 2 <= j && j + 2 <= |s|
    requires parts' == parts + (if i > last then [Plain(s[last..i])] else []) + [Bold(s[i + 2..j])]
    ensures Pushed(s, parts', j + 2)
  {
    var step := MatchSegments(s, last, i, j);
    var rest := Segments(s, j + 2);
    AppendAssoc(parts, if i > last then [Plain(s[last..i])] else [], [Bold(s[i + 2..j])]);
    assert parts' == parts + step;
    SegmentsUnfold(s, last, i, j);
    AppendAssoc(parts, step, rest);
    assert parts' + rest == parts + Segments(s, last);
  }

  lemma {:induction false} WrapAppend(a: seq<Segment>, b: seq<Segment>, open: string, close: string)
    ensures Wrap(a + b, open, close) == Wrap(a, open, close) + Wrap(b, open, close)
  {
    if a != [] {
      TailAppend(a, b);
      var p := Piece(a[0], open, close);
      assert Wrap(a + b, open, close) == p + Wrap(a[1..] + b, open, close);
      WrapAppend(a[1..], b, open, close);
      AppendAssoc(p, Wrap(a[1..], open, close), Wrap(b, open, close));
    } else {
      assert a + b == b;
    }
  }

  /** The segments from `last` on, written back with `**` around the bold ones, give the text
      from `last` on. */
  ghost predicate RoundTrips(s: string, last: nat)
    requires last <= |s|
  {
    Wrap(Segments(s, last), "**", "**") == s[last..]
  }

  lemma {:induction false} SegmentsRoundTrip(s: string, last: nat)
    requires last <= |s|
    decreases |s| - last
    ensures RoundTrips(s, last)
  {
    if NextMatch(s, last).Some? {
      SegmentsRoundTrip(s, NextMatch(s, last).value.close + 2);
      MatchRoundTrip(s, last);
    } else {
      TailRoundTrip(s, last);
    }
  }

  /** One match, given that the segments after it already write back to the rest. */
  lemma MatchRoundTrip(s: string, last: nat)
    requires last <= |s| && NextMatch(s, last).Some?
    requires RoundTrips(s, NextMatch(s, last).value.close + 2)
    ensures RoundTrips(s, last)
  {
    var i, j := NextMatch(s, last).value.start, NextMatch(s, last).value.close;
    SegmentsUnfold(s, last, i, j);
    MatchDelimiters(s, last, i, j);
    RoundTripStep(s, last, i, j, Segments(s, j + 2));
  }

  lemma TailRoundTrip(s: string, last: nat)
    requires last <= |s| && NextMatch(s, last).None?
    ensures RoundTrips(s, last)
  {
    SegmentsEnd(s, last);
    if last < |s| {
      assert Wrap([Plain(s[last..])], "**", "**") == s[last..] + "";
    }
  }

  /** One match: the plain text before it, the span with its delimiters put back, and a
      rest that already writes back to the text after the span. */
  lemma RoundTripStep(s: string, last: nat, i: nat, j: nat, rest: seq<Segment>)
    requires last <= i && i + 2 <= j && j + 2 <= |s|
    requires StarsAt(s, i) && StarsAt(s, j)
    requires Wrap(rest, "**", "**") == s[j + 2..]
    ensures Wrap(MatchSegments(s, last, i, j) + rest, "**", "**") == s[last..]
  {
    var pre := if i > last then [Plain(s[last..i])] else [];
    var head := MatchSegments(s, last, i, j);
    calc {
      Wrap(head + rest, "**", "**");
      { WrapAppend(head, rest, "**", "**"); }
      Wrap(head, "**", "**") + Wrap(rest, "**", "**");
      { WrapAppend(pre, [Bold(s[i + 2..j])], "**", "**"); }
      (Wrap(pre, "**", "**") + Wrap([Bold(s[i + 2..j])], "**", "**")) + s[j + 2..];
      { WrapPre(s, last, i); WrapBold(s[i + 2..j]); }
      (s[last..i] + ("**" + s[i + 2..j] + "**")) + s[j + 2..];
      { SliceSplit(s, last, i, j); }
      s[last..];
    }
  }

  lemma WrapPre(s: string, last: nat, i: nat)
    requires last <= i <= |s|
    ensures Wrap(if i > last then [Plain(s[last..i])] else [], "**", "**") == s[last..i]
  {
    if i > last {
      assert Wrap([Plain(s[last..i])], "**", "**") == s[last..i] + "";
    }
  }

  lemma WrapBold(t: string)
    ensures Wrap([Bold(t)], "**", "**") == "**" + t + "**"
  {
    assert Wrap([Bold(t)], "**", "**") == "**" + t + "**" + "";
  }

  lemma SliceSplit(s: string, last: nat, i: nat, j: nat)
    requires last <= i && i + 2 <= j && j + 2 <= |s|
    requires s[i] == '*' && s[i + 1] == '*' && s[j] == '*' && s[j + 1] == '*'
    ensures s[last..] == s[last..i] + ("**" + s[i + 2..j] + "**") + s[j + 2..]
  {
    var pre, mid, rest := s[last..i], s[i + 2..j], s[j + 2..];
    SplitAt(s, last, i);
    SplitAt(s, i, i + 2);
    SplitAt(s, i + 2, j);
    SplitAt(s, j, j + 2);
    assert s[i..i + 2] == "**";
    assert s[j..j + 2] == "**";
    assert s[last..] == pre + ("**" + (mid + ("**" + rest)));
    AppendAssoc(pre, ("**" + mid) + "**", rest);
    AppendAssoc("**" + mid, "**", rest);
    AppendAssoc("**", mid, "**" + rest);
  }

  lemma SplitAt(s: string, p: nat, q: nat)
    requires p <= q <= |s|
    ensures s[p..] == s[p..q] + s[q..]
  {
  }

  /** Putting the `**` delimiters back around every bold segment gives back the text: no
      character is lost, duplicated or reordered. */
  lemma MarkdownBoldRoundTrip(s: string)
    ensures Wrap(MarkdownBold(s), "**", "**") == s
  {
    SegmentsRoundTrip(s, 0);
  }

  /** The inner text of a shortest span: it holds no `**` and does not end in `*` (either
      would have closed the span earlier). */
  predicate Shortest(t: string) {
    (forall m | 0 <= m < |t| :: !StarsAt(t, m)) && (t == [] || t[|t| - 1] != '*')
  }

  predicate NoLineTerminator(t: string) {
    forall m :: 0 <= m < |t| ==> !IsLineTerminator(t[m])
  }

  /** No bold span could be matched anywhere inside `t`. */
  predicate NoMatch(t: string) {
    forall i :: 0 <= i <= |t| ==> MatchAt(t, i).None?
  }

  /** A match inside a slice of `s` is seen, at the same place, in `s` itself. */
  lemma {:induction false} CloseInSlice(s: string, a: nat, b: nat, k: nat)
    requires a <= b <= |s| && k <= b - a
    requires CloseFrom(s[a..b], k).Some?
    decreases b - a - k
    ensures CloseFrom(s, a + k).Some?
  {
    var p := s[a..b];
    if !StarsAt(p, k) {
      CloseInSlice(s, a, b, k + 1);
      assert p[k] == s[a + k];
    } else {
      assert s[a + k] == p[k] && s[a + k + 1] == p[k + 1];
    }
  }

  lemma MatchInSlice(s: string, a: nat, b: nat, i: nat)
    requires a <= b <= |s| && i <= b - a
    requires MatchAt(s[a..b], i).Some?
    ensures a + i < b && MatchAt(s, a + i).Some?
  {
    var p := s[a..b];
    assert s[a + i] == p[i] && s[a + i + 1] == p[i + 1];
    CloseInSlice(s, a, b, i + 2);
  }

  /** Properties every tokenization by the regular expression has: bold spans are single-line
      and shortest, plain runs are non-empty, hold no match and never follow one another. They
      do not pin the split down on their own: a match that would start inside a plain run and
      end after it is excluded only by `NextMatchLeftmost`. */
  predicate WellFormed(segs: seq<Segment>) {
    && (forall k :: 0 <= k < |segs| && segs[k].Bold? ==> NoLineTerminator(segs[k].text) && Shortest(segs[k].text))
    && (forall k :: 0 <= k < |segs| && segs[k].Plain? ==> segs[k].text != [] && NoMatch(segs[k].text))
    && (forall k :: 0 <= k < |segs| - 1 ==> !(segs[k].Plain? && segs[k + 1].Plain?))
  }

  /** The segments from `last` on are well formed, and empty exactly at the end of the text. */
  ghost predicate SegmentsOk(s: string, last: nat)
    requires last <= |s|
  {
    WellFormed(Segments(s, last)) && (Segments(s, last) == [] <==> last == |s|)
  }

  lemma {:induction false} SegmentsWellFormed(s: string, last: nat)
    requires last <= |s|
    decreases |s| - last
    ensures SegmentsOk(s, last)
  {
    if NextMatch(s, last).None? {
      SegmentsEnd(s, last);
      TailWellFormed(s, last);
    } else {
      SegmentsWellFormed(s, NextMatch(s, last).value.close + 2);
      MatchWellFormed(s, last);
    }
  }

  /** One match, given that the segments after it are already well formed. */
  lemma MatchWellFormed(s: string, last: nat)
    requires last <= |s| && NextMatch(s, last).Some?
    requires SegmentsOk(s, NextMatch(s, last).value.close + 2)
    ensures SegmentsOk(s, last)
  {
    var i, j := NextMatch(s, last).value.start, NextMatch(s, last).value.close;
    SegmentsUnfold(s, last, i, j);
    StepWellFormed(s, last, i, j, Segments(s, j + 2));
  }

  /** With no match left, the plain tail is well formed. */
  lemma TailWellFormed(s: string, last: nat)
    requires last <= |s| && NextMatch(s, last).None?
    ensures WellFormed(if last < |s| then [Plain(s[last..])] else [])
  {
    if last < |s| {
      NextMatchLeftmost(s, last);
      PlainNoMatch(s, last, |s|);
      assert s[last..|s|] == s[last..];
    }
  }

  /** The plain text before a match and the match itself extend a well-formed rest. */
  lemma StepWellFormed(s: string, last: nat, i: nat, j: nat, rest: seq<Segment>)
    requires last <= i && i + 2 <= j && j + 2 <= |s|
    requires NextMatch(s, last) == Some(Match(i, j))
    requires WellFormed(rest)
    ensures WellFormed(MatchSegments(s, last, i, j) + rest)
  {
    var head := MatchSegments(s, last, i, j);
    NextMatchLeftmost(s, last);
    BoldInnerShortest(s, i, j);
    if i > last {
      PlainNoMatch(s, last, i);
    }
    assert WellFormed(head);
    WellFormedAppend(head, rest);
  }

  /** The text between the leftmost match position and `last` holds no match of its own. */
  lemma PlainNoMatch(s: string, last: nat, i: nat)
    requires last <= i <= |s|
    requires forall m :: last <= m < i ==> MatchAt(s, m).None?
    ensures NoMatch(s[last..i])
  {
    var p := s[last..i];
    forall q | 0 <= q <= |p| ensures MatchAt(p, q).None? {
      if MatchAt(p, q).Some? {
        MatchInSlice(s, last, i, q);
      }
    }
  }

  /** The group of a match is shortest and holds no line terminator. */
  lemma BoldInnerShortest(s: string, i: nat, j: nat)
    requires i < |s| && MatchAt(s, i) == Some(j)
    ensures NoLineTerminator(s[i + 2..j]) && Shortest(s[i + 2..j])
  {
    CloseFromFirst(s, i + 2);
    var b := s[i + 2..j];
    forall m | 0 <= m < |b| ensures !IsLineTerminator(b[m]) {
      assert b[m] == s[i + 2 + m];
    }
    forall m | 0 <= m < |b| ensures !StarsAt(b, m) {
      assert !StarsAt(s, i + 2 + m);
      if m + 1 < |b| {
        assert b[m] == s[i + 2 + m] && b[m + 1] == s[i + 2 + m + 1];
      }
    }
    if b != [] {
      assert !StarsAt(s, j - 1);
      assert b[|b| - 1] == s[j - 1];
    }
  }

  lemma WellFormedAppend(a: seq<Segment>, b: seq<Segment>)
    requires WellFormed(a) && WellFormed(b)
    requires a != [] && a[|a| - 1].Bold?
    ensures WellFormed(a + b)
  {
    var c := a + b;
    forall k | 0 <= k < |c| - 1 ensures !(c[k].Plain? && c[k + 1].Plain?) {
      if k + 1 < |a| {
        assert c[k] == a[k] && c[k + 1] == a[k + 1];
      } else if k + 1 == |a| {
        assert c[k] == a[k];
      } else {
        assert c[k] == b[k - |a|] && c[k + 1] == b[k + 1 - |a|];
      }
    }
  }

  /** The tokenizer's guarantees: bold spans hold no line terminator and are as short as
      possible, plain runs are non-empty, hold no bold span and never follow one another;
      the only exception is the `[text]` fallback for the empty text. */
  lemma MarkdownBoldWellFormed(s: string)
    ensures s != [] ==> WellFormed(MarkdownBold(s))
    ensures s == [] ==> MarkdownBold(s) == [Plain("")]
  {
    SegmentsWellFormed(s, 0);
  }
}

=== FILE: cells.dfy ===
/** Table-cell normalisation. The interactive renderer trims a cell, turns every line-break
    tag into a newline and then every literal backslash-n into a newline (index.tsx:582);
    the export trims, turns backslash-n into `<br>`, rewrites every line-break tag as `<br>`
    and wraps bold spans in `<strong>` (index.tsx:419-422). The tag pattern
    `<br\s*\/?>` (case-insensitive) is the scanner `BreakAt`. */
module Cells {
  import opened Text
  import opened Bold

  predicate IsB(c: char) { c == 'b' || c == 'B' }
  predicate IsR(c: char) { c == 'r' || c == 'R' }

  predicate AllSpaces(t: string) {
    forall m :: 0 <= m < |t| ==> IsSpace(t[m])
  }

  /** The end of the run of whitespace starting at `k` (the greedy `\s*`). */
  function SpacesFrom(s: string, k: nat): (r: nat)
    requires k <= |s|
    decreases |s| - k
    ensures k <= r <= |s|
    ensures r == |s| || !IsSpace(s[r])
  {
    if k < |s| && IsSpace(s[k]) then SpacesFrom(s, k + 1) else k
  }

  /** The length of the line-break tag at the start of `s`, if one starts there. */
  function BreakAt(s: string): (r: Option<nat>)
    ensures r.Some? ==> 4 <= r.value <= |s|
  {
    if 3 <= |s| && s[0] == '<' && IsB(s[1]) && IsR(s[2]) then
      var k := SpacesFrom(s, 3);
      var e := if k < |s| && s[k] == '/' then k + 1 else k;
      if e < |s| && s[e] == '>' then Some(e + 1) else None
    else None
  }

  /** The strings the tag pattern matches in full: `<`, `b`, `r` in either case, any
      whitespace, an optional `/`, then `>`. */
  predicate IsBreakTag(t: string) {
    && |t| >= 4 && t[0] == '<' && IsB(t[1]) && IsR(t[2]) && t[|t| - 1] == '>'
    && var mid := t[3..|t| - 1];
       (AllSpaces(mid) || (mid != [] && mid[|mid| - 1] == '/' && AllSpaces(mid[..|mid| - 1])))
  }

  lemma {:induction false} SpacesFromRun(s: string, k: nat)
    requires k <= |s|
    decreases |s| - k
    ensures AllSpaces(s[k..SpacesFrom(s, k)])
  {
    if k < |s| && IsSpace(s[k]) {
      SpacesFromRun(s, k + 1);
      var e := SpacesFrom(s, k);
      assert s[k..e] == [s[k]] + s[k + 1..e];
    }
  }

  lemma {:induction false} SpacesFromExact(s: string, k: nat, e: nat)
    requires k <= e < |s| && AllSpaces(s[k..e]) && !IsSpace(s[e])
    decreases e - k
    ensures SpacesFrom(s, k) == e
  {
    if k < e {
      assert s[k] == s[k..e][0];
      assert s[k + 1..e] == s[k..e][1..];
      SpacesFromExact(s, k + 1, e);
    }
  }

  /** The scanner finds exactly the tags of the pattern: a match is a tag, and a tag at the
      start of the text is matched, with its whole length. */
  lemma BreakAtSound(s: string)
    ensures BreakAt(s).Some? ==> IsBreakTag(s[..BreakAt(s).value])
  {
    if BreakAt(s).Some? {
      var n := BreakAt(s).value;
      var k := SpacesFrom(s, 3);
      SpacesFromRun(s, 3);
      var t := s[..n];
      var mid := t[3..n - 1];
      SliceOfSlice(s, n, 3, n - 1);
      if k < |s| && s[k] == '/' {
        SliceOfSlice(s, n - 1, 3, k);
        assert mid[..|mid| - 1] == s[3..k];
      } else {
        assert mid == s[3..k];
      }
    }
  }

  lemma BreakAtComplete(s: string, n: nat)
    requires n <= |s| && IsBreakTag(s[..n])
    ensures BreakAt(s) == Some(n)
  {
    var t := s[..n];
    var mid := t[3..n - 1];
    SliceOfSlice(s, n, 3, n - 1);
    if AllSpaces(mid) {
      SpacesFromExact(s, 3, n - 1);
    } else {
      SliceOfSlice(s, n - 1, 3, n - 2);
      SpacesFromExact(s, 3, n - 2);
    }
  }

  /** `replace(/<br\s*\/?>/gi, repl)`: every tag, searched left to right, is replaced. */
  function ReplaceBreaks(s: string, repl: string): (r: string)
    decreases |s|
  {
    if s == [] then []
    else match BreakAt(s)
      case Some(n) => repl + ReplaceBreaks(s[n..], repl)
      case None => [s[0]] + ReplaceBreaks(s[1..], repl)
  }

  predicate NoBreak(s: string) {
    forall i :: 0 <= i < |s| ==> BreakAt(s[i..]).None?
  }

  /** Text holding no tag is left alone. */
  lemma {:induction false} ReplaceBreaksNoBreak(s: string, repl: string)
    requires NoBreak(s)
    ensures ReplaceBreaks(s, repl) == s
  {
    if s != [] {
      assert BreakAt(s[0..]).None? && s[0..] == s;
      assert NoBreak(s[1..]) by {
        forall i | 0 <= i < |s[1..]| ensures BreakAt(s[1..][i..]).None? {
          assert s[1..][i..] == s[i + 1..];
        }
      }
      ReplaceBreaksNoBreak(s[1..], repl);
    }
  }

  /** A tag at the front is replaced as a whole and scanning resumes right after it. */
  lemma ReplaceBreaksTag(tag: string, rest: string, repl: string)
    requires IsBreakTag(tag)
    ensures ReplaceBreaks(tag + rest, repl) == repl + ReplaceBreaks(rest, repl)
  {
    var s := tag + rest;
    assert s[..|tag|] == tag;
    BreakAtComplete(s, |tag|);
    assert s[|tag|..] == rest;
  }

  predicate EscapeAt(s: string, i: int) {
    0 <= i && i + 1 < |s| && s[i] == '\\' && s[i + 1] == 'n'
  }

  /** No literal backslash-n is left. */
  predicate NoEscape(s: string) {
    forall i :: 0 <= i < |s| ==> !EscapeAt(s, i)
  }

  /** `replace(/\\n/g, repl)`: every backslash followed by `n`, left to right. */
  function ReplaceEscapes(s: string, repl: string): (r: string)
    decreases |s|
    ensures s != [] && repl != [] ==> r != [] && r[0] == if EscapeAt(s, 0) then repl[0] else s[0]
  {
    if s == [] then []
    else if EscapeAt(s, 0) then repl + ReplaceEscapes(s[2..], repl)
    else [s[0]] + ReplaceEscapes(s[1..], repl)
  }

  /** After the replacement no backslash-n is left, provided the replacement cannot form one
      with its neighbours: it is non-empty, holds no backslash and does not start with `n`.
      A newline and `<br>` both qualify. */
  lemma {:induction false} ReplaceEscapesComplete(s: string, repl: string)
    requires repl != [] && repl[0] != 'n' && '\\' !in repl
    decreases |s|
    ensures NoEscape(ReplaceEscapes(s, repl))
  {
    if s != [] {
      var r := ReplaceEscapes(s, repl);
      if EscapeAt(s, 0) {
        var rest := ReplaceEscapes(s[2..], repl);
        ReplaceEscapesComplete(s[2..], repl);
        forall i | 0 <= i < |r| ensures !EscapeAt(r, i) {
          if 0 <= i < |repl| {
            assert r[i] == repl[i];
          } else if i >= |repl| {
            assert !EscapeAt(rest, i - |repl|);
            if i + 1 < |r| { assert r[i] == rest[i - |repl|] && r[i + 1] == rest[i + 1 - |repl|]; }
          }
        }
      } else {
        var rest := ReplaceEscapes(s[1..], repl);
        ReplaceEscapesComplete(s[1..], repl);
        forall i | 0 <= i < |r| ensures !EscapeAt(r, i) {
          if i == 0 {
            if s[0] == '\\' && 1 < |s| {
              assert s[1..][0] == s[1];
              assert EscapeAt(s[1..], 0) ==> s[1] == '\\';
            }
          } else if i >= 1 {
            assert !EscapeAt(rest, i - 1);
            if i + 1 < |r| { assert r[i] == rest[i - 1] && r[i + 1] == rest[i]; }
          }
        }
      }
    }
  }

  /** Every backslash-n is replaced, wherever it stands: the text around one is replaced on
      its own, whatever it ends or starts with. With `ReplaceEscapesNoEscape` this determines the
      replacement completely. */
  lemma {:induction false} ReplaceEscapesSplit(a: string, b: string, repl: string)
    decreases |a|
    ensures ReplaceEscapes(a + "\\n" + b, repl) == ReplaceEscapes(a, repl) + repl + ReplaceEscapes(b, repl)
  {
    var s := a + "\\n" + b;
    if a == [] {
      assert s[2..] == b;
    } else {
      var k := if EscapeAt(a, 0) then 2 else 1;
      var head := if EscapeAt(a, 0) then repl else [a[0]];
      var r, rb := ReplaceEscapes(a[k..], repl), ReplaceEscapes(b, repl);
      assert EscapeAt(s, 0) == EscapeAt(a, 0);
      assert s[k..] == a[k..] + "\\n" + b;
      assert ReplaceEscapes(s, repl) == head + ReplaceEscapes(s[k..], repl);
      ReplaceEscapesSplit(a[k..], b, repl);
      assert ReplaceEscapes(a, repl) == head + r;
      AppendAssoc(head, r, repl);
      AppendAssoc(head, r + repl, rb);
    }
  }

  /** Text holding no backslash-n is left alone. */
  lemma {:induction false} ReplaceEscapesNoEscape(s: string, repl: string)
    requires NoEscape(s)
    decreases |s|
    ensures ReplaceEscapes(s, repl) == s
  {
    if s != [] {
      assert !EscapeAt(s, 0);
      assert NoEscape(s[1..]) by {
        forall i | 0 <= i < |s| - 1 ensures !EscapeAt(s[1..], i) {
          assert !EscapeAt(s, i + 1);
        }
      }
      ReplaceEscapesNoEscape(s[1..], repl);
    }
  }

  /** The interactive cell text, before it goes to the bold or analyst renderer. */
  function InteractiveCell(cell: string): string {
    ReplaceEscapes(ReplaceBreaks(Trim(cell), "\n"), "\n")
  }

  /** The export cell text with tags and escapes made canonical, before bold spans are wrapped. */
  function ExportCellText(cell: string): string {
    ReplaceBreaks(ReplaceEscapes(Trim(cell), "<br>"), "<br>")
  }

  /** The HTML of an export cell. */
  function ExportCell(cell: string): string {
    Wrap(Segments(ExportCellText(cell), 0), "<strong>", "</strong>")
  }

  /** The interactive cell keeps no literal backslash-n. */
  lemma InteractiveCellNoEscape(cell: string)
    ensures NoEscape(InteractiveCell(cell))
  {
    ReplaceEscapesComplete(ReplaceBreaks(Trim(cell), "\n"), "\n");
  }

  /** The export cell's `<strong>` spans are exactly the bold spans of the canonical text:
      the same segments, written back with `**`, give that text. */
  lemma ExportCellSpans(cell: string)
    ensures var segs := Segments(ExportCellText(cell), 0);
      WellFormed(segs) && Wrap(segs, "**", "**") == ExportCellText(cell) &&
      ExportCell(cell) == Wrap(segs, "<strong>", "</strong>")
  {
    SegmentsWellFormed(ExportCellText(cell), 0);
    SegmentsRoundTrip(ExportCellText(cell), 0);
  }

  /** A cell that is already trimmed and holds neither a tag nor a backslash-n is shown as is. */
  lemma InteractiveCellPlain(cell: string)
    requires Trim(cell) == cell && NoBreak(cell) && NoEscape(cell)
    ensures InteractiveCell(cell) == cell
  {
    ReplaceBreaksNoBreak(cell, "\n");
    ReplaceEscapesNoEscape(cell, "\n");
  }
}

=== FILE: export.dfy ===
/** `generateExportableHtml` and `flushTableToHtml` (index.tsx:399-480): the same walk, writing
    HTML fragments that are joined with newlines into the body of a fixed page. Here an analysis
    heading becomes an `<h2>` wherever it stands, a table needs at least two buffered rows to be
    written, and cells are made canonical (`Cells.ExportCell`) instead of being classified. */
module Export {
  import opened Text
  import opened Bold
  import opened Cells
  import opened Lines
  import Interactive
  import Understanding

  /** The page before the body, up to and including the indentation in front of it
      (index.tsx:456-475); the rules inside the `<style>` element (index.tsx:463-471) are left
      out. */
  const Prefix: string := "\n      <!DOCTYPE html>\n      <html lang=\"en\">\n      <head>\n        <meta charset=\"UTF-8\">\n        <title>Patent Analysis Export</title>\n        <style>\n        </style>\n      </head>\n      <body>\n        "

  /** The page after the body (index.tsx:475-478). */
  const Suffix: string := "\n      </body>\n      </html>\n    "

  function Th(h: string): string { "<th>" + Trim(h) + "</th>" }

  function Td(cell: string): string { "<td>" + ExportCell(cell) + "</td>" }

  /** `headers.forEach(h => htmlParts.push(…))`. */
  function HeaderCells(headers: seq<string>): (r: seq<string>)
    ensures |r| == |headers|
  {
    if headers == [] then [] else HeaderCells(headers[..|headers| - 1]) + [Th(headers[|headers| - 1])]
  }

  /** `row.forEach(cell => htmlParts.push(…))`. */
  function DataCells(row: seq<string>): (r: seq<string>)
    ensures |r| == |row|
  {
    if row == [] then [] else DataCells(row[..|row| - 1]) + [Td(row[|row| - 1])]
  }

  function RowHtml(row: seq<string>): seq<string> {
    ["<tr>"] + DataCells(row) + ["</tr>"]
  }

  /** `rows.forEach(row => …)`. */
  function BodyHtml(rows: seq<seq<string>>): seq<string> {
    if rows == [] then [] else BodyHtml(rows[..|rows| - 1]) + RowHtml(rows[|rows| - 1])
  }

  /** The fixed parts of a written table around its header cells and its body. */
  const OpenParts: seq<string> := ["<table>", "<thead><tr>"]
  const MidParts: seq<string> := ["</tr></thead>", "<tbody>"]
  const CloseParts: seq<string> := ["</tbody></table>"]

  /** What `flushTableToHtml` writes: nothing unless at least two rows are buffered; then row 0
      as the header and rows 2 onward as the body. */
  function TableHtml(buffer: seq<seq<string>>): seq<string> {
    if |buffer| > 1 then
      OpenParts + HeaderCells(buffer[0]) + MidParts + BodyHtml(buffer[2..]) + CloseParts
    else []
  }

  /** What a line outside a table writes (index.tsx:443-449). */
  function LineHtml(line: string): seq<string> {
    var t := Trim(line);
    if IsAnalysisTitle(t) then ["<h2>" + t + "</h2>"]
    else if StartsWith(t, "**") && EndsWith(t, "**") then ["<h3>" + RemoveAll(t, '*') + "</h3>"]
    else if |t| > 0 then ["<p>" + RemoveAll(t, '*') + "</p>"]
    else []
  }

  /** The exported page: the fixed wrapper around the walk's fragments joined by newlines. */
  method GenerateExportableHtml(content: string) returns (html: string)
    ensures html == Prefix + Join(Walk(Split(content, '\n'), TableHtml, LineHtml), '\n') + Suffix
  {
    var htmlParts := WriteParts(content);
    var finalHtmlContent := Join(htmlParts, '\n');
    html := Prefix + finalHtmlContent + Suffix;
  }

  /** The loop of `generateExportableHtml`: the fragments of the walk, in order. */
  method WriteParts(content: string) returns (htmlParts: seq<string>)
    ensures htmlParts == Walk(Split(content, '\n'), TableHtml, LineHtml)
  {
    htmlParts := [];
    var lines := Split(content, '\n');
    var inTable := false;
    var tableBuffer: seq<seq<string>> := [];
    StepStart(lines, TableHtml, LineHtml);
    for i := 0 to |lines|
      invariant inTable <==> tableBuffer != []
      invariant Progress(htmlParts, tableBuffer, lines, i, TableHtml, LineHtml)
    {
      var trimmedLine := Trim(lines[i]);
      if StartsWith(trimmedLine, "|") && EndsWith(trimmedLine, "|") {
        inTable := true;
        var cells := RowCells(lines[i]);
        StepRow(htmlParts, tableBuffer, lines, i, TableHtml, LineHtml);
        tableBuffer := tableBuffer + [cells];
      } else {
        ghost var before, open := htmlParts, tableBuffer;
        ghost var flushed := htmlParts + (if tableBuffer == [] then [] else TableHtml(tableBuffer));
        if inTable {
          htmlParts, tableBuffer := FlushTableToHtml(htmlParts, tableBuffer);
          inTable := false;
        }
        assert htmlParts == flushed;
        htmlParts := WriteLine(htmlParts, lines[i], trimmedLine);
        assert htmlParts == flushed + LineHtml(lines[i]);
        StepText(before, open, lines, i, htmlParts, TableHtml, LineHtml);
      }
    }
    ghost var before, open := htmlParts, tableBuffer;
    htmlParts, tableBuffer := FlushTableToHtml(htmlParts, tableBuffer);
    StepEnd(before, open, lines, htmlParts, TableHtml, LineHtml);
  }

  /** The heading or paragraph element written for a line outside a table. */
  method WriteLine(htmlParts: seq<string>, line: string, trimmedLine: string) returns (htmlParts': seq<string>)
    requires trimmedLine == Trim(line)
    ensures htmlParts' == htmlParts + LineHtml(line)
  {
    htmlParts' := htmlParts;
    if IsAnalysisTitle(trimmedLine) {
      htmlParts' := htmlParts' + ["<h2>" + trimmedLine + "</h2>"];
    } else if StartsWith(trimmedLine, "**") && EndsWith(trimmedLine, "**") {
      htmlParts' := htmlParts' + ["<h3>" + RemoveAll(trimmedLine, '*') + "</h3>"];
    } else if |trimmedLine| > 0 {
      htmlParts' := htmlParts' + ["<p>" + RemoveAll(trimmedLine, '*') + "</p>"];
    }
  }

  /** `flushTableToHtml`: writes the buffered table when it has at least two rows, and empties
      the buffer in every case. */
  method FlushTableToHtml(htmlParts: seq<string>, tableBuffer: seq<seq<string>>) returns (htmlParts': seq<string>, tableBuffer': seq<seq<string>>)
    ensures htmlParts' == htmlParts + (if tableBuffer == [] then [] else TableHtml(tableBuffer))
    ensures tableBuffer' == []
  {
    htmlParts' := htmlParts;
    if |tableBuffer| > 1 {
      var headers := tableBuffer[0];
      var rows := tableBuffer[2..];
      var open := ["<table>", "<thead><tr>"];
      var head := WriteHeaderCells(headers);
      var body := WriteBodyRows(rows);
      htmlParts' := htmlParts + (open + head + ["</tr></thead>", "<tbody>"] + body + ["</tbody></table>"]);
    }
    tableBuffer' := [];
  }

  method WriteHeaderCells(headers: seq<string>) returns (parts: seq<string>)
    ensures parts == HeaderCells(headers)
  {
    parts := [];
    for k := 0 to |headers|
      invariant parts == HeaderCells(headers[..k])
    {
      assert headers[..k + 1][..k] == headers[..k];
      parts := parts + ["<th>" + Trim(headers[k]) + "</th>"];
    }
    assert headers[..|headers|] == headers;
  }

  method WriteBodyRows(rows: seq<seq<string>>) returns (parts: seq<string>)
    ensures parts == BodyHtml(rows)
  {
    parts := [];
    for i := 0 to |rows|
      invariant parts == BodyHtml(rows[..i])
    {
      assert rows[..i + 1][..i] == rows[..i];
      var cells := WriteDataCells(rows[i]);
      parts := parts + (["<tr>"] + cells + ["</tr>"]);
    }
    assert rows[..|rows|] == rows;
  }

  method WriteDataCells(row: seq<string>) returns (parts: seq<string>)
    ensures parts == DataCells(row)
  {
    parts := [];
    for j := 0 to |row|
      invariant parts == DataCells(row[..j])
    {
      assert row[..j + 1][..j] == row[..j];
      var cellContent := ExportCell(row[j]);
      parts := parts + ["<td>" + cellContent + "</td>"];
    }
    assert row[..|row|] == row;
  }

  /** A table is written exactly when at least two rows were buffered. */
  lemma TableWritten(buffer: seq<seq<string>>)
    ensures TableHtml(buffer) != [] <==> |buffer| >= 2
  {
  }

  predicate IsRowOpen(part: string) { part == "<tr>" }

  /** A run of N + 2 table lines is written with exactly N body rows: the header row and the
      separator row open no `<tr>` of their own. */
  lemma BodyRowCount(buffer: seq<seq<string>>)
    requires |buffer| >= 2
    ensures CountWhere(TableHtml(buffer), IsRowOpen) == |buffer| - 2
  {
    var head := HeaderCells(buffer[0]);
    var body := BodyHtml(buffer[2..]);
    HeaderCellsNone(buffer[0], IsRowOpen);
    BodyHtmlRows(buffer[2..]);
    FixedParts();
    CountWhereAppend(OpenParts + head + MidParts + body, CloseParts, IsRowOpen);
    CountWhereAppend(OpenParts + head + MidParts, body, IsRowOpen);
    CountWhereAppend(OpenParts + head, MidParts, IsRowOpen);
    CountWhereAppend(OpenParts, head, IsRowOpen);
  }

  /** No header cell is a short part such as `<tr>` or `<table>`: each is nine characters or more. */
  lemma {:induction false} HeaderCellsNone(headers: seq<string>, p: string -> bool)
    requires forall part: string :: p(part) ==> |part| < 9
    ensures CountWhere(HeaderCells(headers), p) == 0
  {
    if headers != [] {
      var init := headers[..|headers| - 1];
      HeaderCellsNone(init, p);
      CountWhereAppend(HeaderCells(init), [Th(headers[|headers| - 1])], p);
      assert |Th(headers[|headers| - 1])| >= 9;
    }
  }

  /** No data cell is a short part such as `<tr>` or `<table>`: each is nine characters or more. */
  lemma {:induction false} DataCellsNone(row: seq<string>, p: string -> bool)
    requires forall part: string :: p(part) ==> |part| < 9
    ensures CountWhere(DataCells(row), p) == 0
  {
    if row != [] {
      var init := row[..|row| - 1];
      DataCellsNone(init, p);
      CountWhereAppend(DataCells(init), [Td(row[|row| - 1])], p);
      assert |Td(row[|row| - 1])| >= 9;
    }
  }

  lemma {:induction false} BodyHtmlRows(rows: seq<seq<string>>)
    ensures CountWhere(BodyHtml(rows), IsRowOpen) == |rows|
  {
    if rows != [] {
      var init := rows[..|rows| - 1];
      var last := rows[|rows| - 1];
      BodyHtmlRows(init);
      DataCellsNone(last, IsRowOpen);
      CountWhereAppend(BodyHtml(init), RowHtml(last), IsRowOpen);
      CountWhereAppend(["<tr>"] + DataCells(last), ["</tr>"], IsRowOpen);
      CountWhereAppend(["<tr>"], DataCells(last), IsRowOpen);
    }
  }

  /** An analysis heading becomes an `<h2>` wherever it stands, not only as the first line. */
  lemma LineHtmlTitle(line: string)
    ensures IsAnalysisTitle(Trim(line)) <==> LineHtml(line) == ["<h2>" + Trim(line) + "</h2>"]
  {
    var h := LineHtml(line);
    if !IsAnalysisTitle(Trim(line)) {
      assert h == [] || h[0][2] == '3' || h[0][2] == '>';
    }
  }

  /** The two renderers disagree on a table of one row: the page leaves it out, while the
      interactive view shows it as a table with a header and no body. */
  lemma OneRowTable(line: string)
    requires IsTableLine(line)
    ensures Walk([line], TableHtml, LineHtml) == []
    ensures Walk([line], Interactive.TableBlocks, Interactive.LineBlocks) == [Interactive.Table(TrimCells(RowCells(line)), [])]
  {
    assert LeadingRows([line]) == 1;
    assert [line][..1] == [line];
    assert Rows([line]) == [RowCells(line)];
    assert Interactive.RenderRows(RowCells(line), Interactive.BodyRows([RowCells(line)])) == [];
  }

  predicate IsTableOpen(part: string) { part == "<table>" }

  /** The fixed parts open one table and no row. */
  lemma FixedParts()
    ensures CountWhere(OpenParts, IsTableOpen) == 1 && CountWhere(OpenParts, IsRowOpen) == 0
    ensures CountWhere(MidParts, IsTableOpen) == 0 && CountWhere(MidParts, IsRowOpen) == 0
    ensures CountWhere(CloseParts, IsTableOpen) == 0 && CountWhere(CloseParts, IsRowOpen) == 0
  {
    assert |OpenParts[1]| == 11 && |MidParts[0]| == 13 && |MidParts[1]| == 7 && |CloseParts[0]| == 16;
    assert MidParts[1][1] == 't' && MidParts[1][2] == 'b';
    assert OpenParts[1..] == [OpenParts[1]] && MidParts[1..] == [MidParts[1]];
    CountWhereOne(OpenParts[1], IsTableOpen);
    CountWhereOne(OpenParts[1], IsRowOpen);
    CountWhereOne(MidParts[1], IsTableOpen);
    CountWhereOne(MidParts[1], IsRowOpen);
    CountWhereOne(CloseParts[0], IsTableOpen);
    CountWhereOne(CloseParts[0], IsRowOpen);
  }

  /** The body of a table opens no other table. */
  lemma {:induction false} BodyHtmlNoTable(rows: seq<seq<string>>)
    ensures CountWhere(BodyHtml(rows), IsTableOpen) == 0
  {
    if rows != [] {
      var init := rows[..|rows| - 1];
      var last := rows[|rows| - 1];
      BodyHtmlNoTable(init);
      DataCellsNone(last, IsTableOpen);
      CountWhereAppend(BodyHtml(init), RowHtml(last), IsTableOpen);
      CountWhereAppend(["<tr>"] + DataCells(last), ["</tr>"], IsTableOpen);
      CountWhereAppend(["<tr>"], DataCells(last), IsTableOpen);
    }
  }

  /** A buffered run is written as one table when it has two rows or more, and as none
      otherwise. */
  lemma TableHtmlTables(buffer: seq<seq<string>>)
    ensures CountWhere(TableHtml(buffer), IsTableOpen) == if |buffer| < 2 then 0 else 1
  {
    if |buffer| >= 2 {
      var head := HeaderCells(buffer[0]);
      var body := BodyHtml(buffer[2..]);
      HeaderCellsNone(buffer[0], IsTableOpen);
      BodyHtmlNoTable(buffer[2..]);
      FixedParts();
      CountWhereAppend(OpenParts + head + MidParts + body, CloseParts, IsTableOpen);
      CountWhereAppend(OpenParts + head + MidParts, body, IsTableOpen);
      CountWhereAppend(OpenParts + head, MidParts, IsTableOpen);
      CountWhereAppend(OpenParts, head, IsTableOpen);
    }
  }

  /** The page holds one table per maximal run of at least two table lines, so never more
      tables than the interactive view shows for the same lines. */
  lemma TablesPerRun(lines: seq<string>)
    ensures CountWhere(Walk(lines, TableHtml, LineHtml), IsTableOpen) == LongRuns(lines)
    ensures LongRuns(lines) <= Runs(lines)
  {
    forall rows: seq<seq<string>> | rows != [] ensures CountWhere(TableHtml(rows), IsTableOpen) == if |rows| < 2 then 0 else 1 {
      TableHtmlTables(rows);
    }
    forall line: string ensures forall k :: 0 <= k < |LineHtml(line)| ==> !IsTableOpen(LineHtml(line)[k]) {
      LineHtmlNoTable(line);
    }
    WalkTableCount(lines, TableHtml, LineHtml, IsTableOpen, true);
    LongRunsFewer(lines, 0);
  }

  /** A line outside a table opens no table. */
  lemma LineHtmlNoTable(line: string)
    ensures forall k :: 0 <= k < |LineHtml(line)| ==> !IsTableOpen(LineHtml(line)[k])
  {
    if LineHtml(line) != [] {
      var part := LineHtml(line)[0];
      assert part[1] == 'h' || part[1] == 'p';
    }
  }

  /** Outside tables the two renderers agree on every line except an analysis heading: a
      heading block is written as `<h3>`, a paragraph block as `<p>`, with the same text. An
      analysis heading is an `<h2>` on the page and a plain paragraph in the interactive view. */
  lemma LinesAgree(line: string)
    ensures |LineHtml(line)| == |Interactive.LineBlocks(line)| <= 1
    ensures IsAnalysisTitle(Trim(line)) ==>
      LineHtml(line) == ["<h2>" + Trim(line) + "</h2>"] && Interactive.LineBlocks(line) == [Interactive.Paragraph(Trim(line))]
    ensures !IsAnalysisTitle(Trim(line)) ==> forall k :: 0 <= k < |LineHtml(line)| ==>
      var b := Interactive.LineBlocks(line)[k];
      (b.Heading? && LineHtml(line)[k] == "<h3>" + b.text + "</h3>") || (b.Paragraph? && LineHtml(line)[k] == "<p>" + b.text + "</p>")
  {
    var t := Trim(line);
    if IsAnalysisTitle(t) {
      TitleNoStars(t);
      RemoveAllNone(t, '*');
    }
  }

  /** An analysis heading holds no asterisk. */
  lemma TitleNoStars(t: string)
    requires IsAnalysisTitle(t)
    ensures '*' !in t && !StartsWith(t, "**")
  {
    assert t[0] != '*';
  }

  /** A run of two or more table lines gives, in all three renderers, a table with the same
      trimmed header and the same number of body rows; on the page each header cell is the
      interactive header cell between `<th>` and `</th>`. */
  lemma TablesAgree(buffer: seq<seq<string>>)
    requires |buffer| >= 2
    ensures |Interactive.TableBlocks(buffer)| == 1 && Interactive.TableBlocks(buffer)[0].Table?
    ensures |Understanding.TableBlocks(buffer)| == 1 && Understanding.TableBlocks(buffer)[0].Table?
    ensures var it, ut := Interactive.TableBlocks(buffer)[0], Understanding.TableBlocks(buffer)[0];
      && it.header == ut.header
      && |HeaderCells(buffer[0])| == |it.header|
      && (forall k :: 0 <= k < |it.header| ==> HeaderCells(buffer[0])[k] == "<th>" + it.header[k] + "</th>")
      && |it.rows| == |ut.rows| == CountWhere(TableHtml(buffer), IsRowOpen)
  {
    HeaderCellsAt(buffer[0]);
    BodyRowCount(buffer);
    var h := TrimCells(buffer[0]);
    forall k | 0 <= k < |h| ensures HeaderCells(buffer[0])[k] == "<th>" + h[k] + "</th>" {
      assert Th(buffer[0][k]) == "<th>" + h[k] + "</th>";
    }
  }

  /** Header cell `k` is header `k`, trimmed, between `<th>` and `</th>`. */
  lemma {:induction false} HeaderCellsAt(headers: seq<string>)
    ensures forall k :: 0 <= k < |headers| ==> HeaderCells(headers)[k] == Th(headers[k])
  {
    if headers != [] {
      var init := headers[..|headers| - 1];
      HeaderCellsAt(init);
      forall k | 0 <= k < |headers| ensures HeaderCells(headers)[k] == Th(headers[k]) {
        if k < |init| {
          assert headers[k] == init[k];
        }
      }
    }
  }

  /** Data cell `k` is cell `k` of the row, cleaned, between `<td>` and `</td>`. */
  lemma {:induction false} DataCellsAt(row: seq<string>)
    ensures forall k :: 0 <= k < |row| ==> DataCells(row)[k] == Td(row[k])
  {
    if row != [] {
      var init := row[..|row| - 1];
      DataCellsAt(init);
      forall k | 0 <= k < |row| ensures DataCells(row)[k] == Td(row[k]) {
        if k < |init| {
          assert row[k] == init[k];
        }
      }
    }
  }
}

=== FILE: interactive.dfy ===
/** The interactive renderer, the body of `ResultDisplay` (index.tsx:503-617): the title is
    taken from the first non-blank line when that line is an analysis heading, and the rest is
    walked into headings, paragraphs and tables whose cells go through `renderMarkdownBold`, or
    through `renderAnalystComment` in analyst columns. A buffered table is emitted as soon as it
    holds one row. */
module Interactive {
  import opened Text
  import opened Bold
  import opened Cells
  import opened Analyst
  import opened Lines

  datatype Cell =
    | Spans(segments: seq<Segment>)
    | Commentary(commentary: Commentary)

  datatype Block =
    | Heading(text: string)
    | Paragraph(text: string)
    | Table(header: seq<string>, rows: seq<seq<Cell>>)

  const DefaultTitle: string := "Analysis Result"

  /** `lines.find(l => l.trim().length > 0)`, as the index of the line found. */
  function FirstRealLine(lines: seq<string>, k: nat): (r: Option<nat>)
    requires k <= |lines|
    decreases |lines| - k
    ensures r.Some? ==> k <= r.value < |lines| && Trim(lines[r.value]) != []
  {
    if k == |lines| then None
    else if Trim(lines[k]) != [] then Some(k)
    else FirstRealLine(lines, k + 1)
  }

  /** The line found is the first non-blank one. */
  lemma {:induction false} FirstRealLineFirst(lines: seq<string>, k: nat)
    requires k <= |lines|
    decreases |lines| - k
    ensures FirstRealLine(lines, k).Some? ==> forall m :: k <= m < FirstRealLine(lines, k).value ==> Trim(lines[m]) == []
    ensures FirstRealLine(lines, k).None? ==> forall m :: k <= m < |lines| ==> Trim(lines[m]) == []
  {
    if k < |lines| && Trim(lines[k]) == [] {
      FirstRealLineFirst(lines, k + 1);
    }
  }

  /** The title and the text left to walk (index.tsx:511-517). */
  function ExtractTitle(content: string): (string, string) {
    var lines := Split(content, '\n');
    match FirstRealLine(lines, 0)
    case Some(k) =>
      if IsAnalysisTitle(Trim(lines[k])) then (Trim(lines[k]), Join(lines[k + 1..], '\n'))
      else (DefaultTitle, content)
    case None => (DefaultTitle, content)
  }

  /** The source finds the title line again with `lines.indexOf(firstRealLine)`; no earlier
      line is equal to it, since every earlier line is blank, so that is its own index. */
  lemma TitleIndexOf(content: string)
    requires FirstRealLine(Split(content, '\n'), 0).Some?
    ensures var lines := Split(content, '\n'); var k := FirstRealLine(lines, 0).value;
      forall m :: 0 <= m < k ==> lines[m] != lines[k]
  {
    FirstRealLineFirst(Split(content, '\n'), 0);
  }

  /** What `flushTable` shows for one cell: the cleaned text through the analyst renderer in
      an analyst column, through the bold tokenizer elsewhere. */
  function RenderCell(headers: seq<string>, j: nat, cell: string): Cell {
    var cleaned := InteractiveCell(cell);
    if IsAnalystColumn(headers, j) then Commentary(Classify(cleaned)) else Spans(MarkdownBold(cleaned))
  }

  function RenderRow(headers: seq<string>, row: seq<string>): seq<Cell> {
    seq(|row|, j requires 0 <= j < |row| => RenderCell(headers, j, row[j]))
  }

  function RenderRows(headers: seq<string>, rows: seq<seq<string>>): seq<seq<Cell>> {
    seq(|rows|, i requires 0 <= i < |rows| => RenderRow(headers, rows[i]))
  }

  /** The body rows of a buffered table: everything after the header and the separator. */
  function BodyRows(buffer: seq<seq<string>>): seq<seq<string>> {
    if |buffer| > 2 then buffer[2..] else []
  }

  /** What `flushTable` emits for a buffer. */
  function TableBlocks(buffer: seq<seq<string>>): seq<Block> {
    if |buffer| > 0 then [Table(TrimCells(buffer[0]), RenderRows(buffer[0], BodyRows(buffer)))] else []
  }

  /** What a line outside a table produces (index.tsx:610-614). */
  function LineBlocks(line: string): seq<Block> {
    var t := Trim(line);
    if StartsWith(t, "**") && EndsWith(t, "**") then [Heading(RemoveAll(t, '*'))]
    else if |t| > 0 then [Paragraph(RemoveAll(t, '*'))]
    else []
  }

  /** The whole component: the title and the blocks of the walk. */
  method ResultDisplay(content: string) returns (title: string, elements: seq<Block>)
    ensures title == ExtractTitle(content).0
    ensures elements == Walk(Split(ExtractTitle(content).1, '\n'), TableBlocks, LineBlocks)
  {
    var contentToRender;
    title, contentToRender := ExtractTitle(content).0, ExtractTitle(content).1;
    var lines := Split(contentToRender, '\n');
    elements := [];
    var inTable := false;
    var tableBuffer: seq<seq<string>> := [];
    StepStart(lines, TableBlocks, LineBlocks);
    for i := 0 to |lines|
      invariant inTable <==> tableBuffer != []
      invariant Progress(elements, tableBuffer, lines, i, TableBlocks, LineBlocks)
    {
      var trimmedLine := Trim(lines[i]);
      if StartsWith(trimmedLine, "|") && EndsWith(trimmedLine, "|") {
        inTable := true;
        var cells := RowCells(lines[i]);
        StepRow(elements, tableBuffer, lines, i, TableBlocks, LineBlocks);
        tableBuffer := tableBuffer + [cells];
      } else {
        ghost var before, open := elements, tableBuffer;
        ghost var flushed := elements + (if tableBuffer == [] then [] else TableBlocks(tableBuffer));
        if inTable {
          elements, tableBuffer := FlushTable(elements, tableBuffer);
          inTable := false;
        }
        assert elements == flushed;
        elements := RenderLine(elements, lines[i], trimmedLine);
        assert elements == flushed + LineBlocks(lines[i]);
        StepText(before, open, lines, i, elements, TableBlocks, LineBlocks);
      }
    }
    ghost var before, open := elements, tableBuffer;
    elements, tableBuffer := FlushTable(elements, tableBuffer);
    StepEnd(before, open, lines, elements, TableBlocks, LineBlocks);
  }

  /** The heading or paragraph written for a line outside a table. */
  method RenderLine(elements: seq<Block>, line: string, trimmedLine: string) returns (elements': seq<Block>)
    requires trimmedLine == Trim(line)
    ensures elements' == elements + LineBlocks(line)
  {
    elements' := elements;
    if StartsWith(trimmedLine, "**") && EndsWith(trimmedLine, "**") {
      elements' := elements' + [Heading(RemoveAll(trimmedLine, '*'))];
    } else if |trimmedLine| > 0 {
      elements' := elements' + [Paragraph(RemoveAll(trimmedLine, '*'))];
    }
  }

  /** `flushTable`: emits the buffered table, if any, and empties the buffer. */
  method FlushTable(elements: seq<Block>, tableBuffer: seq<seq<string>>) returns (elements': seq<Block>, tableBuffer': seq<seq<string>>)
    ensures elements' == elements + (if tableBuffer == [] then [] else TableBlocks(tableBuffer))
    ensures tableBuffer' == []
  {
    elements' := elements;
    if |tableBuffer| > 0 {
      var headers := tableBuffer[0];
      var rows := BodyRows(tableBuffer);
      var body: seq<seq<Cell>> := [];
      for i := 0 to |rows|
        invariant |body| == i
        invariant forall k :: 0 <= k < i ==> body[k] == RenderRow(headers, rows[k])
      {
        var row := RenderTableRow(headers, rows[i]);
        body := body + [row];
      }
      assert body == RenderRows(headers, rows);
      elements' := elements' + [Table(TrimCells(headers), body)];
    }
    tableBuffer' := [];
  }

  /** One body row: each cell is cleaned, then classified or tokenized. */
  method RenderTableRow(headers: seq<string>, row: seq<string>) returns (cells: seq<Cell>)
    ensures cells == RenderRow(headers, row)
  {
    cells := [];
    for j := 0 to |row|
      invariant |cells| == j
      invariant forall k :: 0 <= k < j ==> cells[k] == RenderCell(headers, k, row[k])
    {
      var cell := RenderTableCell(headers, j, row[j]);
      cells := cells + [cell];
    }
  }

  /** The callback for one cell: the cell is cleaned, then given to the analyst renderer in an
      analyst column and to the bold renderer elsewhere. */
  method RenderTableCell(headers: seq<string>, j: nat, cell: string) returns (c: Cell)
    ensures c == RenderCell(headers, j, cell)
  {
    var cleanedCell := InteractiveCell(cell);
    if IsAnalystColumn(headers, j) {
      c := Commentary(Classify(cleanedCell));
    } else {
      var parts := RenderMarkdownBold(cleanedCell);
      c := Spans(parts);
    }
  }

  /** Title extraction: the title is an analysis heading exactly when the first non-blank line
      trims to one, and then the lines after it are walked, as if the heading and the blank
      lines before it were not there; otherwise the title is "Analysis Result" and the whole
      content is walked. */
  lemma {:induction false} ExtractTitleSpec(content: string)
    ensures var lines := Split(content, '\n');
      var first := FirstRealLine(lines, 0);
      var (title, rest) := ExtractTitle(content);
      && (title != DefaultTitle <==> first.Some? && IsAnalysisTitle(Trim(lines[first.value])))
      && (title != DefaultTitle ==> title == Trim(lines[first.value]) && IsAnalysisTitle(title))
      && (title != DefaultTitle ==> Walk(Split(rest, '\n'), TableBlocks, LineBlocks) == Walk(lines[first.value + 1..], TableBlocks, LineBlocks))
      && (title == DefaultTitle ==> rest == content)
  {
    var lines := Split(content, '\n');
    var first := FirstRealLine(lines, 0);
    var (title, rest) := ExtractTitle(content);
    if first.Some? && IsAnalysisTitle(Trim(lines[first.value])) {
      TitleFound(content, first.value);
      assert title != DefaultTitle && title == Trim(lines[first.value]);
    } else {
      TitleDefault(content);
      assert title == DefaultTitle && rest == content;
    }
  }

  /** When the first non-blank line is an analysis heading, it is the title, and the walk of the
      rest is the walk of the lines after it. */
  lemma {:induction false} TitleFound(content: string, k: nat)
    requires var lines := Split(content, '\n');
      FirstRealLine(lines, 0) == Some(k) && IsAnalysisTitle(Trim(lines[k]))
    ensures var lines := Split(content, '\n');
      && ExtractTitle(content).0 != DefaultTitle
      && ExtractTitle(content).0 == Trim(lines[k]) && IsAnalysisTitle(ExtractTitle(content).0)
      && Walk(Split(ExtractTitle(content).1, '\n'), TableBlocks, LineBlocks) == Walk(lines[k + 1..], TableBlocks, LineBlocks)
  {
    var lines := Split(content, '\n');
    var after := lines[k + 1..];
    forall m | 0 <= m < |after| ensures '\n' !in after[m] {
      assert after[m] == lines[k + 1 + m];
    }
    RejoinedWalk(after);
    assert ExtractTitle(content) == (Trim(lines[k]), Join(after, '\n'));
  }

  /** Otherwise the title is the default and the whole content is walked. */
  lemma {:induction false} TitleDefault(content: string)
    requires var lines := Split(content, '\n'); var first := FirstRealLine(lines, 0);
      !(first.Some? && IsAnalysisTitle(Trim(lines[first.value])))
    ensures ExtractTitle(content) == (DefaultTitle, content)
  {
  }

  /** Joining lines and splitting them again changes nothing the walk can see: a join of
      no lines splits into one blank line, which produces nothing. */
  lemma RejoinedWalk(after: seq<string>)
    requires forall k :: 0 <= k < |after| ==> '\n' !in after[k]
    ensures Walk(Split(Join(after, '\n'), '\n'), TableBlocks, LineBlocks) == Walk(after, TableBlocks, LineBlocks)
  {
    if after == [] {
      assert Join(after, '\n') == "";
      BlankWalk();
    } else {
      SplitJoin(after, '\n');
    }
  }

  lemma BlankWalk()
    ensures Walk(Split("", '\n'), TableBlocks, LineBlocks) == []
  {
    assert Split("", '\n') == [""];
    assert Trim("") == "";
    assert Walk([""], TableBlocks, LineBlocks) == LineBlocks("") + Walk([], TableBlocks, LineBlocks);
  }

  /** A buffered run of table rows becomes one table: its header is the first row trimmed, its
      body is every row after the second, cell by cell; a cell is an analyst commentary exactly
      in an analyst column, and a tokenized cell, with its `**` put back, is the cleaned cell. */
  lemma TableShape(buffer: seq<seq<string>>)
    requires buffer != []
    ensures |TableBlocks(buffer)| == 1 && TableBlocks(buffer)[0].Table?
    ensures var t := TableBlocks(buffer)[0];
      && t.header == TrimCells(buffer[0])
      && |t.rows| == (if |buffer| > 2 then |buffer| - 2 else 0)
      && forall i :: 0 <= i < |t.rows| ==>
           |t.rows[i]| == |buffer[i + 2]| &&
           forall j :: 0 <= j < |t.rows[i]| ==>
             (t.rows[i][j].Commentary? <==> IsAnalystColumn(buffer[0], j)) &&
             (t.rows[i][j].Spans? ==> Wrap(t.rows[i][j].segments, "**", "**") == InteractiveCell(buffer[i + 2][j]))
  {
    var t := TableBlocks(buffer)[0];
    forall i, j | 0 <= i < |t.rows| && 0 <= j < |t.rows[i]| && t.rows[i][j].Spans?
      ensures Wrap(t.rows[i][j].segments, "**", "**") == InteractiveCell(buffer[i + 2][j])
    {
      assert BodyRows(buffer)[i] == buffer[i + 2];
      MarkdownBoldRoundTrip(InteractiveCell(buffer[i + 2][j]));
    }
  }

  /** Outside tables: a trimmed line that starts and ends with `**` is a heading, any other
      non-blank line a paragraph, a blank line nothing; asterisks are removed, nothing else. */
  lemma LineBlocksSpec(line: string)
    ensures var t := Trim(line);
      && (LineBlocks(line) == [] <==> t == [])
      && (|LineBlocks(line)| == 1 && LineBlocks(line)[0].Heading? <==> StartsWith(t, "**") && EndsWith(t, "**"))
      && (LineBlocks(line) != [] ==> |LineBlocks(line)| == 1 && LineBlocks(line)[0].text == RemoveAll(t, '*'))
  {
  }

  /** Every maximal run of table rows becomes exactly one table, even a run of one row. */
  lemma TablesPerRun(lines: seq<string>)
    ensures CountWhere(Walk(lines, TableBlocks, LineBlocks), IsTable) == Runs(lines)
  {
    forall rows: seq<seq<string>> | rows != [] ensures CountWhere(TableBlocks(rows), IsTable) == 1 {
      CountWhereOne(TableBlocks(rows)[0], IsTable);
    }
    forall line: string, k | 0 <= k < |LineBlocks(line)| ensures !IsTable(LineBlocks(line)[k]) {
    }
    WalkTableCount(lines, TableBlocks, LineBlocks, IsTable, false);
  }

  predicate IsTable(b: Block) { b.Table? }
}

=== FILE: lines.dfy ===
/** The line classification the three renderers share, and the meaning of their walk.
    A line is a table row when its trimmed form starts and ends with `|` (index.tsx:434, 601,
    677); its cells are the pieces of `split('|')` without the first and the last. The
    renderers walk the lines with an `inTable` flag and a row buffer; `Walk` below states what
    that produces without any state: every maximal run of consecutive table rows is handed,
    as one list of rows, to the renderer's table emitter, and every other line to its line
    emitter, in document order. */
module Lines {
  import opened Text

  predicate IsTableLine(line: string) {
    var t := Trim(line);
    StartsWith(t, "|") && EndsWith(t, "|")
  }

  /** `/^(COMBINATION|OVERLAP) ANALYSIS$/` on a trimmed line. */
  predicate IsAnalysisTitle(t: string) {
    t == "COMBINATION ANALYSIS" || t == "OVERLAP ANALYSIS"
  }

  /** `trimmedLine.split('|').slice(1, -1)`. */
  function RowCells(line: string): seq<string> {
    var pieces := Split(Trim(line), '|');
    if |pieces| >= 2 then pieces[1..|pieces| - 1] else []
  }

  /** A table row has one cell fewer than it has pipes; no cell holds a pipe, since pipes are
      never escaped. */
  lemma RowCellsCount(line: string)
    requires IsTableLine(line)
    ensures |RowCells(line)| == Count(Trim(line), '|') - 1
    ensures forall k :: 0 <= k < |RowCells(line)| ==> '|' !in RowCells(line)[k]
  {
    var t := Trim(line);
    assert t[0] == '|';
    assert t == [t[0]] + t[1..];
    assert Count(t, '|') >= 1;
  }

  /** A row of at least two characters is its cells between pipes: `|a|b|` has cells `a`, `b`. */
  lemma RowCellsRebuild(line: string)
    requires IsTableLine(line) && |Trim(line)| >= 2
    ensures Trim(line) == "|" + Join(RowCells(line), '|') + "|"
  {
    var t := Trim(line);
    var pieces := Split(t, '|');
    JoinSplit(t, '|');
    RowCellsCount(line);
    assert t[0] == '|' && t[|t| - 1] == '|';
    // the first and the last piece are empty: the text starts and ends with a pipe
    PiecesAtEnds(t);
    JoinFirstLast(pieces, '|');
  }

  lemma PiecesAtEnds(t: string)
    requires |t| >= 2 && t[0] == '|' && t[|t| - 1] == '|'
    ensures |Split(t, '|')| >= 3
    ensures Split(t, '|')[0] == ""
    ensures Split(t, '|')[|Split(t, '|')| - 1] == ""
  {
    assert t == [t[0]] + t[1..];
    LastPieceEmpty(t);
    JoinSplit(t, '|');
  }

  lemma {:induction false} LastPieceEmpty(t: string)
    requires t != [] && t[|t| - 1] == '|'
    ensures Split(t, '|')[|Split(t, '|')| - 1] == ""
  {
    if |t| > 1 {
      LastPieceEmpty(t[1..]);
    }
  }

  lemma JoinFirstLast(pieces: seq<string>, sep: char)
    requires |pieces| >= 3 && pieces[0] == "" && pieces[|pieces| - 1] == ""
    ensures Join(pieces, sep) == [sep] + Join(pieces[1..|pieces| - 1], sep) + [sep]
  {
    var mid := pieces[1..|pieces| - 1];
    assert pieces[1..] == mid + [""];
    JoinLast(mid, sep);
  }

  lemma {:induction false} JoinLast(parts: seq<string>, sep: char)
    ensures Join(parts + [""], sep) == if parts == [] then "" else Join(parts, sep) + [sep]
  {
    if |parts| == 1 {
      assert parts + [""] == [parts[0], ""];
    } else if |parts| > 1 {
      assert (parts + [""])[1..] == parts[1..] + [""];
      JoinLast(parts[1..], sep);
    }
  }

  /** `cells.map(c => c.trim())`. */
  function TrimCells(cells: seq<string>): (r: seq<string>)
    ensures |r| == |cells|
    ensures forall k :: 0 <= k < |cells| ==> r[k] == Trim(cells[k])
  {
    if cells == [] then [] else [Trim(cells[0])] + TrimCells(cells[1..])
  }

  /** How many table rows the lines start with. */
  function LeadingRows(lines: seq<string>): (n: nat)
    ensures n <= |lines|
  {
    if lines != [] && IsTableLine(lines[0]) then 1 + LeadingRows(lines[1..]) else 0
  }

  /** The run is maximal: every line in it is a table row and the next one is not. */
  lemma {:induction false} LeadingRowsMaximal(lines: seq<string>)
    ensures forall k :: 0 <= k < LeadingRows(lines) ==> IsTableLine(lines[k])
    ensures LeadingRows(lines) == |lines| || !IsTableLine(lines[LeadingRows(lines)])
  {
    if lines != [] && IsTableLine(lines[0]) {
      LeadingRowsMaximal(lines[1..]);
    }
  }

  /** The cells of each line, in order. */
  function Rows(lines: seq<string>): (r: seq<seq<string>>)
    ensures |r| == |lines|
  {
    if lines == [] then [] else [RowCells(lines[0])] + Rows(lines[1..])
  }

  /** The blocks for `lines`: `table` gets the rows of each maximal run of table lines, `text`
      gets each other line. */
  function Walk<B>(lines: seq<string>, table: seq<seq<string>> -> seq<B>, text: string -> seq<B>): seq<B>
    decreases |lines|
  {
    if lines == [] then []
    else if IsTableLine(lines[0]) then
      var n := LeadingRows(lines);
      table(Rows(lines[..n])) + Walk(lines[n..], table, text)
    else text(lines[0]) + Walk(lines[1..], table, text)
  }

  /** What is still to come when `buffer` holds the rows of an open table and `rest` is the
      input not yet read: the open table, continued by the rows at the front of `rest`, and then
      the walk of what follows. */
  function Pending<B>(buffer: seq<seq<string>>, rest: seq<string>, table: seq<seq<string>> -> seq<B>, text: string -> seq<B>): seq<B> {
    if buffer == [] then Walk(rest, table, text)
    else
      var n := LeadingRows(rest);
      table(buffer + Rows(rest[..n])) + Walk(rest[n..], table, text)
  }

  /** Reading a table line: its row joins the buffer. */
  lemma PendingRow<B>(buffer: seq<seq<string>>, rest: seq<string>, table: seq<seq<string>> -> seq<B>, text: string -> seq<B>)
    requires rest != [] && IsTableLine(rest[0])
    ensures Pending(buffer + [RowCells(rest[0])], rest[1..], table, text) == Pending(buffer, rest, table, text)
  {
    var n := LeadingRows(rest);
    var tail := rest[1..];
    assert LeadingRows(tail) == n - 1;
    assert tail[n - 1..] == rest[n..];
    assert rest[..n][1..] == tail[..n - 1];
    assert Rows(rest[..n]) == [RowCells(rest[0])] + Rows(tail[..n - 1]);
    if buffer == [] {
      assert buffer + [RowCells(rest[0])] == [RowCells(rest[0])];
    } else {
      AppendAssoc(buffer, [RowCells(rest[0])], Rows(tail[..n - 1]));
    }
  }

  /** Reading another line: the open table, if any, is emitted, then the line's blocks. */
  lemma PendingText<B>(buffer: seq<seq<string>>, rest: seq<string>, table: seq<seq<string>> -> seq<B>, text: string -> seq<B>)
    requires rest != [] && !IsTableLine(rest[0])
    ensures Pending(buffer, rest, table, text) == (if buffer == [] then [] else table(buffer)) + text(rest[0]) + Walk(rest[1..], table, text)
  {
    assert LeadingRows(rest) == 0;
    if buffer != [] {
      assert rest[..0] == [];
      assert buffer + Rows([]) == buffer;
      assert rest[0..] == rest;
      AppendAssoc(table(buffer), text(rest[0]), Walk(rest[1..], table, text));
    } else {
      assert [] + text(rest[0]) == text(rest[0]);
    }
  }

  /** At the end of the input the open table, if any, is emitted. */
  lemma PendingEnd<B>(buffer: seq<seq<string>>, table: seq<seq<string>> -> seq<B>, text: string -> seq<B>)
    ensures Pending(buffer, [], table, text) == if buffer == [] then [] else table(buffer)
  {
    if buffer != [] {
      assert Rows([]) == [];
      assert buffer + [] == buffer;
    }
  }

  /** The loop invariant of the renderers: after reading `lines[..i]` with `emitted` output
      and `buffer` holding the open table, what is still to come completes the walk. */
  ghost predicate Progress<B>(emitted: seq<B>, buffer: seq<seq<string>>, lines: seq<string>, i: nat, table: seq<seq<string>> -> seq<B>, text: string -> seq<B>) {
    i <= |lines| && emitted + Pending(buffer, lines[i..], table, text) == Walk(lines, table, text)
  }

  /** Before the first line nothing is emitted and the buffer is empty. */
  lemma StepStart<B>(lines: seq<string>, table: seq<seq<string>> -> seq<B>, text: string -> seq<B>)
    ensures Progress([], [], lines, 0, table, text)
  {
    assert lines[0..] == lines;
  }

  /** Reading a table line: its row joins the buffer. */
  lemma StepRow<B>(emitted: seq<B>, buffer: seq<seq<string>>, lines: seq<string>, i: nat, table: seq<seq<string>> -> seq<B>, text: string -> seq<B>)
    requires i < |lines| && IsTableLine(lines[i])
    requires Progress(emitted, buffer, lines, i, table, text)
    ensures Progress(emitted, buffer + [RowCells(lines[i])], lines, i + 1, table, text)
  {
    assert lines[i..][1..] == lines[i + 1..];
    PendingRow(buffer, lines[i..], table, text);
  }

  /** Reading any other line: the open table, if any, and the line's blocks are emitted, and
      the buffer is empty again. */
  lemma StepText<B>(emitted: seq<B>, buffer: seq<seq<string>>, lines: seq<string>, i: nat, emitted': seq<B>, table: seq<seq<string>> -> seq<B>, text: string -> seq<B>)
    requires i < |lines| && !IsTableLine(lines[i])
    requires Progress(emitted, buffer, lines, i, table, text)
    requires emitted' == emitted + (if buffer == [] then [] else table(buffer)) + text(lines[i])
    ensures Progress(emitted', [], lines, i + 1, table, text)
  {
    assert lines[i..][1..] == lines[i + 1..];
    PendingText(buffer, lines[i..], table, text);
    var f := if buffer == [] then [] else table(buffer);
    AppendAssoc(emitted + f, text(lines[i]), Walk(lines[i + 1..], table, text));
    AppendAssoc(emitted, f, text(lines[i]) + Walk(lines[i + 1..], table, text));
    AppendAssoc(f, text(lines[i]), Walk(lines[i + 1..], table, text));
  }

  /** At the end of the input the final flush completes the walk. */
  lemma StepEnd<B>(emitted: seq<B>, buffer: seq<seq<string>>, lines: seq<string>, emitted': seq<B>, table: seq<seq<string>> -> seq<B>, text: string -> seq<B>)
    requires Progress(emitted, buffer, lines, |lines|, table, text)
    requires emitted' == emitted + (if buffer == [] then [] else table(buffer))
    ensures emitted' == Walk(lines, table, text)
  {
    assert lines[|lines|..] == [];
    PendingEnd(buffer, table, text);
  }

  /** A line that is not a table row closes every table before it: the walk of text that
      ends in such a line, followed by more text, is the two walks one after the other. */
  lemma {:induction false} WalkAppend<B>(a: seq<string>, b: seq<string>, table: seq<seq<string>> -> seq<B>, text: string -> seq<B>)
    requires a == [] || !IsTableLine(a[|a| - 1])
    decreases |a|
    ensures Walk(a + b, table, text) == Walk(a, table, text) + Walk(b, table, text)
  {
    if a == [] {
      assert a + b == b;
    } else {
      var n := if IsTableLine(a[0]) then LeadingRows(a) else 1;
      LeadingRowsAppend(a, b);
      if n < |a| { assert a[n..][|a[n..]| - 1] == a[|a| - 1]; }
      WalkAppend(a[n..], b, table, text);
      WalkAppendStep(a, b, n, table, text);
    }
  }

  /** The first step of the walk of `a + b` is the first step of the walk of `a`. */
  lemma WalkAppendStep<B>(a: seq<string>, b: seq<string>, n: nat, table: seq<seq<string>> -> seq<B>, text: string -> seq<B>)
    requires a != [] && n == (if IsTableLine(a[0]) then LeadingRows(a) else 1)
    requires LeadingRows(a) < |a| && LeadingRows(a + b) == LeadingRows(a)
    requires Walk(a[n..] + b, table, text) == Walk(a[n..], table, text) + Walk(b, table, text)
    ensures Walk(a + b, table, text) == Walk(a, table, text) + Walk(b, table, text)
  {
    assert (a + b)[0] == a[0];
    if IsTableLine(a[0]) {
      WalkAppendTable(a, b, n, table, text);
    } else {
      WalkAppendText(a, b, table, text);
    }
  }

  lemma WalkAppendTable<B>(a: seq<string>, b: seq<string>, n: nat, table: seq<seq<string>> -> seq<B>, text: string -> seq<B>)
    requires a != [] && IsTableLine(a[0]) && n == LeadingRows(a) < |a|
    requires LeadingRows(a + b) == n
    requires Walk(a[n..] + b, table, text) == Walk(a[n..], table, text) + Walk(b, table, text)
    ensures Walk(a + b, table, text) == Walk(a, table, text) + Walk(b, table, text)
  {
    var ab := a + b;
    SliceAppend(a, b, n);
    WalkFirst(ab, table, text);
    WalkFirst(a, table, text);
    AppendAssoc(table(Rows(a[..n])), Walk(a[n..], table, text), Walk(b, table, text));
  }

  lemma WalkAppendText<B>(a: seq<string>, b: seq<string>, table: seq<seq<string>> -> seq<B>, text: string -> seq<B>)
    requires a != [] && !IsTableLine(a[0])
    requires Walk(a[1..] + b, table, text) == Walk(a[1..], table, text) + Walk(b, table, text)
    ensures Walk(a + b, table, text) == Walk(a, table, text) + Walk(b, table, text)
  {
    var ab := a + b;
    SliceAppend(a, b, 1);
    WalkFirst(ab, table, text);
    WalkFirst(a, table, text);
    AppendAssoc(text(a[0]), Walk(a[1..], table, text), Walk(b, table, text));
  }

  lemma SliceAppend(a: seq<string>, b: seq<string>, n: nat)
    requires 1 <= n <= |a|
    ensures (a + b)[0] == a[0] && (a + b)[..n] == a[..n] && (a + b)[n..] == a[n..] + b
  {
  }

  /** The first step of the walk: a run of table rows, or one other line. */
  lemma WalkFirst<B>(lines: seq<string>, table: seq<seq<string>> -> seq<B>, text: string -> seq<B>)
    requires lines != []
    ensures IsTableLine(lines[0]) ==> Walk(lines, table, text) == table(Rows(lines[..LeadingRows(lines)])) + Walk(lines[LeadingRows(lines)..], table, text)
    ensures !IsTableLine(lines[0]) ==> Walk(lines, table, text) == text(lines[0]) + Walk(lines[1..], table, text)
  {
  }

  lemma LeadingRowsAppend(a: seq<string>, b: seq<string>)
    requires a != [] && !IsTableLine(a[|a| - 1])
    ensures LeadingRows(a) < |a|
    ensures LeadingRows(a + b) == LeadingRows(a)
  {
    LeadingRowsMaximal(a);
    LeadingRowsPrefix(a, b, LeadingRows(a));
  }

  lemma {:induction false} LeadingRowsPrefix(a: seq<string>, b: seq<string>, n: nat)
    requires n < |a| && !IsTableLine(a[n])
    requires forall k :: 0 <= k < n ==> IsTableLine(a[k])
    decreases n
    ensures LeadingRows(a + b) == n
  {
    if n == 0 {
      assert (a + b)[0] == a[0];
    } else {
      assert (a + b)[0] == a[0];
      assert (a + b)[1..] == a[1..] + b;
      LeadingRowsPrefix(a[1..], b, n - 1);
    }
  }

  /** Text without table rows is walked line by line. */
  lemma {:induction false} WalkNoTables<B>(lines: seq<string>, table: seq<seq<string>> -> seq<B>, text: string -> seq<B>)
    requires forall k :: 0 <= k < |lines| ==> !IsTableLine(lines[k])
    ensures Walk(lines, table, text) == LineByLine(lines, text)
  {
    if lines != [] {
      WalkNoTables(lines[1..], table, text);
    }
  }

  function LineByLine<B>(lines: seq<string>, text: string -> seq<B>): seq<B> {
    if lines == [] then [] else text(lines[0]) + LineByLine(lines[1..], text)
  }

  /** Line `i` starts a run of table rows: it is one, and the line before it, if any, is not.
      With `long`, the run must also hold a second row. */
  predicate RunStart(lines: seq<string>, i: nat, long: bool)
    requires i < |lines|
  {
    && IsTableLine(lines[i]) && (i == 0 || !IsTableLine(lines[i - 1]))
    && (long ==> i + 1 < |lines| && IsTableLine(lines[i + 1]))
  }

  /** The number of lines from index `i` on that start a run (of two rows or more, with `long`). */
  function StartsFrom(lines: seq<string>, i: nat, long: bool): nat
    requires i <= |lines|
    decreases |lines| - i
  {
    if i == |lines| then 0 else (if RunStart(lines, i, long) then 1 else 0) + StartsFrom(lines, i + 1, long)
  }

  /** The number of maximal runs of table rows, counted by where they start. */
  function Runs(lines: seq<string>): nat {
    StartsFrom(lines, 0, false)
  }

  /** The number of maximal runs of at least two table rows. */
  function LongRuns(lines: seq<string>): nat {
    StartsFrom(lines, 0, true)
  }

  /** Past index `k`, dropping the first `k` lines changes no run start. */
  lemma {:induction false} StartsShift(lines: seq<string>, k: nat, i: nat, long: bool)
    requires k < i <= |lines|
    decreases |lines| - i
    ensures StartsFrom(lines, i, long) == StartsFrom(lines[k..], i - k, long)
  {
    if i < |lines| {
      var rest := lines[k..];
      assert rest[i - k] == lines[i] && rest[i - k - 1] == lines[i - 1];
      assert i + 1 < |lines| ==> rest[i - k + 1] == lines[i + 1];
      assert RunStart(lines, i, long) == RunStart(rest, i - k, long);
      StartsShift(lines, k, i + 1, long);
    }
  }

  /** Inside a run of table rows no new run starts. */
  lemma {:induction false} NoStartsInRun(lines: seq<string>, i: nat, n: nat, long: bool)
    requires 1 <= i <= n <= |lines|
    requires forall m :: 0 <= m < n ==> IsTableLine(lines[m])
    decreases n - i
    ensures StartsFrom(lines, i, long) == StartsFrom(lines, n, long)
  {
    if i < n {
      assert IsTableLine(lines[i - 1]);
      NoStartsInRun(lines, i + 1, n, long);
    }
  }

  /** Lines that start with a run: that run, counted unless it is too short, then the runs
      after it. */
  lemma RunsTable(lines: seq<string>, long: bool)
    requires lines != [] && IsTableLine(lines[0])
    ensures StartsFrom(lines, 0, long) == (if long && LeadingRows(lines) < 2 then 0 else 1) + StartsFrom(lines[LeadingRows(lines)..], 0, long)
  {
    var n := LeadingRows(lines);
    LeadingRowsMaximal(lines);
    assert RunStart(lines, 0, long) == !(long && n < 2);
    NoStartsInRun(lines, 1, n, long);
    if n < |lines| {
      var rest := lines[n..];
      StartsShift(lines, n, n + 1, long);
      assert rest[0] == lines[n];
      assert !RunStart(rest, 0, long);
    }
  }

  /** Lines that start with a non-table line: the runs after it. */
  lemma RunsText(lines: seq<string>, long: bool)
    requires lines != [] && !IsTableLine(lines[0])
    ensures StartsFrom(lines, 0, long) == StartsFrom(lines[1..], 0, long)
  {
    assert StartsFrom(lines, 0, long) == StartsFrom(lines, 1, long);
    if |lines| >= 2 {
      var rest := lines[1..];
      StartsShift(lines, 1, 2, long);
      assert rest[0] == lines[1];
      assert |lines| >= 3 ==> rest[1] == lines[2];
      assert RunStart(lines, 1, long) == RunStart(rest, 0, long);
      assert StartsFrom(rest, 0, long) == (if RunStart(rest, 0, long) then 1 else 0) + StartsFrom(rest, 1, long);
    }
  }

  /** Counting only the long runs counts no more runs. */
  lemma {:induction false} LongRunsFewer(lines: seq<string>, i: nat)
    requires i <= |lines|
    decreases |lines| - i
    ensures StartsFrom(lines, i, true) <= StartsFrom(lines, i, false)
  {
    if i < |lines| {
      LongRunsFewer(lines, i + 1);
    }
  }

  /** When every run becomes exactly one table block (runs of two rows or more, with `long`)
      and no other line produces one, the walk holds exactly as many table blocks as there
      are such runs. */
  lemma {:induction false} WalkTableCount<B>(lines: seq<string>, table: seq<seq<string>> -> seq<B>, text: string -> seq<B>, isTable: B -> bool, long: bool)
    requires forall rows: seq<seq<string>> :: rows != [] ==> CountWhere(table(rows), isTable) == if long && |rows| < 2 then 0 else 1
    requires forall line: string :: forall k :: 0 <= k < |text(line)| ==> !isTable(text(line)[k])
    decreases |lines|
    ensures CountWhere(Walk(lines, table, text), isTable) == StartsFrom(lines, 0, long)
  {
    if lines != [] {
      if IsTableLine(lines[0]) {
        var n := LeadingRows(lines);
        RunsTable(lines, long);
        WalkTableCount(lines[n..], table, text, isTable, long);
        CountWhereAppend(table(Rows(lines[..n])), Walk(lines[n..], table, text), isTable);
      } else {
        RunsText(lines, long);
        WalkTableCount(lines[1..], table, text, isTable, long);
        CountWhereAppend(text(lines[0]), Walk(lines[1..], table, text), isTable);
        CountWhereNone(text(lines[0]), isTable);
      }
    }
  }

  /** A single element is counted exactly when it satisfies the predicate. */
  lemma CountWhereOne<B>(x: B, p: B -> bool)
    ensures CountWhere([x], p) == if p(x) then 1 else 0
  {
    assert [x][1..] == [];
  }

  function CountWhere<B>(xs: seq<B>, p: B -> bool): nat {
    if xs == [] then 0 else (if p(xs[0]) then 1 else 0) + CountWhere(xs[1..], p)
  }

  lemma {:induction false} CountWhereAppend<B>(xs: seq<B>, ys: seq<B>, p: B -> bool)
    ensures CountWhere(xs + ys, p) == CountWhere(xs, p) + CountWhere(ys, p)
  {
    if xs == [] {
      assert xs + ys == ys;
    } else {
      assert (xs + ys)[0] == xs[0];
      assert (xs + ys)[1..] == xs[1..] + ys;
      CountWhereAppend(xs[1..], ys, p);
    }
  }

  lemma {:induction false} CountWhereNone<B>(xs: seq<B>, p: B -> bool)
    requires forall k :: 0 <= k < |xs| ==> !p(xs[k])
    ensures CountWhere(xs, p) == 0
  {
    if xs != [] {
      CountWhereNone(xs[1..], p);
    }
  }
}

=== FILE: text.dfy ===
/** String helpers standing in for the JavaScript built-ins the renderer relies on:
    `trim`, `split` and `join` on one character, `startsWith`/`endsWith`, `includes`,
    `toLowerCase`, the asterisk-removing replace, `Number.prototype.toString` and `padStart`.
    Whitespace is the ASCII set (space, tab, line feed, carriage return, vertical tab,
    form feed). */
module Text {

  datatype Option<T> = None | Some(value: T)

  predicate IsSpace(c: char) {
    c == ' ' || c == '\t' || c == '\n' || c == '\r' || c as int == 11 || c as int == 12
  }

  /** `String.prototype.trimStart`: drops the leading whitespace. */
  function TrimStart(s: string): string {
    if s != [] && IsSpace(s[0]) then TrimStart(s[1..]) else s
  }

  /** `String.prototype.trimEnd`: drops the trailing whitespace. */
  function TrimEnd(s: string): string {
    if s != [] && IsSpace(s[|s| - 1]) then TrimEnd(s[..|s| - 1]) else s
  }

  /** `String.prototype.trim`. */
  function Trim(s: string): string {
    TrimEnd(TrimStart(s))
  }

  /** `trimStart` drops the leading whitespace and nothing else. */
  lemma {:induction false} TrimStartProperties(s: string)
    ensures var r := TrimStart(s);
      |r| <= |s| && r == s[|s| - |r|..] && (r == [] || !IsSpace(r[0])) &&
      forall i :: 0 <= i < |s| - |r| ==> IsSpace(s[i])
  {
    if s != [] && IsSpace(s[0]) {
      var t, r := s[1..], TrimStart(s);
      TrimStartProperties(t);
      assert r == TrimStart(t);
      DropAfterFirst(s, |s| - |r|);
      forall i | 0 <= i < |s| - |r| ensures IsSpace(s[i]) {
        if i > 0 {
          assert s[i] == t[i - 1];
        }
      }
    }
  }

  /** Dropping the first element, then `k - 1` more, drops `k`. */
  lemma DropAfterFirst<T>(s: seq<T>, k: nat)
    requires 1 <= k <= |s|
    ensures s[1..][k - 1..] == s[k..]
  {
  }

  /** A slice of a prefix, and a prefix of a slice, are slices of the whole. */
  lemma SliceOfSlice<T>(s: seq<T>, n: nat, i: nat, j: nat)
    requires i <= j <= n <= |s|
    ensures s[..n][i..j] == s[i..j] && s[i..n][..j - i] == s[i..j]
  {
  }

  /** `trimEnd` drops the trailing whitespace and nothing else. */
  lemma {:induction false} TrimEndProperties(s: string)
    ensures var r := TrimEnd(s);
      |r| <= |s| && r == s[..|r|] && (r == [] || !IsSpace(r[|r| - 1])) &&
      forall i :: |r| <= i < |s| ==> IsSpace(s[i])
  {
    if s != [] && IsSpace(s[|s| - 1]) {
      var t, r := s[..|s| - 1], TrimEnd(s);
      TrimEndProperties(t);
      assert r == TrimEnd(t);
      assert s[..|r|] == t[..|r|];
      forall i | |r| <= i < |s| ensures IsSpace(s[i]) {
        if i < |s| - 1 {
          assert s[i] == t[i];
        }
      }
    }
  }

  /** `trim`: the result is a contiguous piece of `s`, everything cut away is whitespace, and
      the result neither starts nor ends with whitespace. */
  lemma TrimProperties(s: string)
    ensures var r := Trim(s);
      (exists i {:trigger s[i..]} :: 0 <= i <= |s| - |r| && r == s[i..][..|r|]) &&
      (r == [] || (!IsSpace(r[0]) && !IsSpace(r[|r| - 1]))) &&
      ((forall c :: c in s ==> IsSpace(c)) <==> r == [])
  {
    var t := TrimStart(s);
    var r := TrimEnd(t);
    TrimStartProperties(s);
    TrimEndProperties(t);
    assert r == s[|s| - |t|..][..|r|];
    if r == [] {
      assert t == [];
    } else {
      assert !IsSpace(r[0]) && r[0] in s;
    }
  }

  /** Trimming adds no character. */
  lemma TrimSub(s: string, c: char)
    requires c !in s
    ensures c !in Trim(s)
  {
    var r := Trim(s);
    TrimProperties(s);
    var i :| 0 <= i <= |s| - |r| && r == s[i..][..|r|];
  }

  predicate StartsWith(s: string, prefix: string) {
    |prefix| <= |s| && s[..|prefix|] == prefix
  }

  predicate EndsWith(s: string, suffix: string) {
    |suffix| <= |s| && s[|s| - |suffix|..] == suffix
  }

  /** `String.prototype.includes`: `part` occurs somewhere in `s`. */
  predicate Contains(s: string, part: string) {
    StartsWith(s, part) || (s != [] && Contains(s[1..], part))
  }

  /** `toLowerCase`, restricted to the ASCII letters. */
  function ToLower(s: string): (r: string)
    ensures |r| == |s|
    ensures forall i :: 0 <= i < |s| ==> r[i] == if 'A' <= s[i] <= 'Z' then (s[i] as int + 32) as char else s[i]
  {
    if s == [] then []
    else [if 'A' <= s[0] <= 'Z' then (s[0] as int + 32) as char else s[0]] + ToLower(s[1..])
  }

  /** Number of occurrences of `c` in `s`. */
  function Count(s: string, c: char): nat {
    if s == [] then 0 else (if s[0] == c then 1 else 0) + Count(s[1..], c)
  }

  /** Global removal of one character (`replace` with an empty replacement): every `c` removed, every other character kept in order. */
  function RemoveAll(s: string, c: char): (r: string)
    ensures c !in r
    ensures |r| == |s| - Count(s, c)
    ensures forall x :: x != c ==> (x in r <==> x in s)
  {
    if s == [] then []
    else if s[0] == c then RemoveAll(s[1..], c)
    else [s[0]] + RemoveAll(s[1..], c)
  }

  /** Removal works piece by piece, so the characters kept stay in their order: a
      concatenation loses its `c`s in each part separately, and (`RemoveAllOne`) a single
      character is dropped exactly when it is `c`. */
  lemma {:induction false} RemoveAllAppend(a: string, b: string, c: char)
    decreases |a|
    ensures RemoveAll(a + b, c) == RemoveAll(a, c) + RemoveAll(b, c)
  {
    if a == [] {
      assert a + b == b;
    } else {
      TailAppend(a, b);
      RemoveAllAppend(a[1..], b, c);
      AppendAssoc(if a[0] == c then [] else [a[0]], RemoveAll(a[1..], c), RemoveAll(b, c));
    }
  }

  lemma RemoveAllOne(x: char, c: char)
    ensures RemoveAll([x], c) == if x == c then [] else [x]
  {
    assert [x][1..] == [];
  }

  /** Text without `c` is left alone. */
  lemma {:induction false} RemoveAllNone(s: string, c: char)
    requires c !in s
    decreases |s|
    ensures RemoveAll(s, c) == s
  {
    if s != [] {
      RemoveAllNone(s[1..], c);
    }
  }

  /** `s.split(sep)`: the pieces between separators; there is always one more piece than
      there are separators, and no piece holds a separator. */
  function Split(s: string, sep: char): (r: seq<string>)
    ensures |r| == Count(s, sep) + 1
    ensures forall k :: 0 <= k < |r| ==> sep !in r[k]
  {
    if s == [] then [""]
    else
      var rest := Split(s[1..], sep);
      if s[0] == sep then [""] + rest else [[s[0]] + rest[0]] + rest[1..]
  }

  /** `parts.join(sep)`. */
  function Join(parts: seq<string>, sep: char): string {
    if |parts| == 0 then ""
    else if |parts| == 1 then parts[0]
    else parts[0] + [sep] + Join(parts[1..], sep)
  }

  /** Concatenation regroups freely; a hint for proofs about long concatenations. */
  lemma AppendAssoc<T>(a: seq<T>, b: seq<T>, c: seq<T>)
    ensures (a + b) + c == a + (b + c)
  {
  }

  /** The head and tail of a concatenation whose left part is not empty. */
  lemma TailAppend<T>(a: seq<T>, b: seq<T>)
    requires a != []
    ensures (a + b)[0] == a[0] && (a + b)[1..] == a[1..] + b
  {
  }

  /** Joining the pieces of a split gives back the string. */
  lemma {:induction false} JoinSplit(s: string, sep: char)
    ensures Join(Split(s, sep), sep) == s
  {
    if s != [] {
      var rest := Split(s[1..], sep);
      JoinSplit(s[1..], sep);
      if s[0] == sep {
        assert Split(s, sep) == [""] + rest;
      } else {
        var r := Split(s, sep);
        assert r == [[s[0]] + rest[0]] + rest[1..];
        if |rest| == 1 {
          assert r == [[s[0]] + rest[0]];
        } else {
          assert r[1..] == rest[1..];
          assert Join(r, sep) == [s[0]] + rest[0] + [sep] + Join(rest[1..], sep);
        }
      }
    }
  }

  /** Splitting a join of separator-free pieces gives back the pieces (an empty list of
      pieces joins to "" and splits to [""], so at least one piece is needed). */
  lemma {:induction false} SplitJoin(parts: seq<string>, sep: char)
    requires |parts| >= 1
    requires forall k :: 0 <= k < |parts| ==> sep !in parts[k]
    ensures Split(Join(parts, sep), sep) == parts
  {
    if |parts| == 1 {
      SplitNoSep(parts[0], sep);
    } else {
      SplitJoin(parts[1..], sep);
      SplitAfter(parts[0], Join(parts[1..], sep), sep);
      assert Join(parts, sep) == parts[0] + ([sep] + Join(parts[1..], sep));
      assert [parts[0]] + parts[1..] == parts;
    }
  }

  lemma {:induction false} SplitNoSep(s: string, sep: char)
    requires sep !in s
    ensures Split(s, sep) == [s]
  {
    if s != [] {
      SplitNoSep(s[1..], sep);
      assert [s[0]] + s[1..] == s;
    }
  }

  /** Splitting `a + [sep] + b` where `a` holds no separator. */
  lemma {:induction false} SplitAfter(a: string, b: string, sep: char)
    requires sep !in a
    ensures Split(a + ([sep] + b), sep) == [a] + Split(b, sep)
  {
    if a != [] {
      assert (a + ([sep] + b))[1..] == a[1..] + ([sep] + b);
      SplitAfter(a[1..], b, sep);
      assert [a[0]] + a[1..] == a;
    } else {
      assert a + ([sep] + b) == [sep] + b;
      assert ([sep] + b)[1..] == b;
    }
  }

  /** The decimal digits of `n`, as `n.toString()` writes them. */
  function NatToString(n: nat): (r: string)
    ensures |r| >= 1
    ensures forall i :: 0 <= i < |r| ==> '0' <= r[i] <= '9'
    ensures n >= 10 ==> r[0] != '0'
  {
    if n < 10 then [(48 + n) as char] else NatToString(n / 10) + [(48 + n % 10) as char]
  }

  /** The value of a string of decimal digits. */
  function DigitsValue(s: string): nat
    requires forall i :: 0 <= i < |s| ==> '0' <= s[i] <= '9'
  {
    if s == [] then 0 else DigitsValue(s[..|s| - 1]) * 10 + (s[|s| - 1] as int - 48)
  }

  /** `NatToString` is read back by `DigitsValue`. */
  lemma {:induction false} NatToStringValue(n: nat)
    ensures DigitsValue(NatToString(n)) == n
  {
    if n >= 10 {
      NatToStringValue(n / 10);
      var r := NatToString(n);
      assert r[..|r| - 1] == NatToString(n / 10);
    }
  }

  /** `s.padStart(width, '0')`: zeros in front until the string is `width` long. */
  function PadZeros(s: string, width: nat): (r: string)
    ensures |r| == if |s| < width then width else |s|
    ensures EndsWith(r, s)
    ensures forall i :: 0 <= i < |r| - |s| ==> r[i] == '0'
  {
    if |s| < width then seq(width - |s|, _ => '0') + s else s
  }

  /** Leading zeros do not change the value of a digit string. */
  lemma {:induction false} LeadingZerosValue(s: string, k: nat)
    requires forall i :: 0 <= i < |s| ==> '0' <= s[i] <= '9'
    ensures DigitsValue(seq(k, _ => '0') + s) == DigitsValue(s)
  {
    if s == [] {
      ZerosValue(k);
      assert seq(k, _ => '0') + s == seq(k, _ => '0');
    } else {
      var z := seq(k, _ => '0') + s;
      assert z[..|z| - 1] == seq(k, _ => '0') + s[..|s| - 1];
      LeadingZerosValue(s[..|s| - 1], k);
    }
  }

  lemma {:induction false} ZerosValue(k: nat)
    ensures DigitsValue(seq(k, _ => '0')) == 0
  {
    if k > 0 {
      assert seq(k, _ => '0')[..k - 1] == seq(k - 1, _ => '0');
      ZerosValue(k - 1);
    }
  }
}

=== FILE: understanding.dfy ===
/** `UnderstandingDisplay` (index.tsx:641-692), the simplest of the three renderers: headings
    lose their first two and last two characters, paragraphs and cells are only trimmed, and
    a buffered table is emitted as soon as it holds one row. */
module Understanding {
  import opened Text
  import opened Lines
  import Interactive

  datatype Block =
    | Heading(text: string)
    | Paragraph(text: string)
    | Table(header: seq<string>, rows: seq<seq<string>>)

  /** `s.slice(2, -2)`: empty when the string is shorter than four characters. */
  function Inner(s: string): (r: string)
    ensures |s| >= 4 ==> s == s[..2] + r + s[|s| - 2..]
    ensures |s| < 4 ==> r == []
  {
    if |s| >= 4 then s[2..|s| - 2] else []
  }

  function TrimRows(rows: seq<seq<string>>): (r: seq<seq<string>>)
    ensures |r| == |rows|
    ensures forall k :: 0 <= k < |rows| ==> r[k] == TrimCells(rows[k])
  {
    if rows == [] then [] else [TrimCells(rows[0])] + TrimRows(rows[1..])
  }

  /** What `flushTable` emits: row 0 is the header, row 1 (the separator) is dropped. */
  function TableBlocks(buffer: seq<seq<string>>): seq<Block> {
    if |buffer| > 0 then [Table(TrimCells(buffer[0]), TrimRows(if |buffer| > 2 then buffer[2..] else []))] else []
  }

  /** What a line outside a table produces. */
  function LineBlocks(line: string): seq<Block> {
    var t := Trim(line);
    if StartsWith(t, "**") && EndsWith(t, "**") then [Heading(Inner(t))]
    else if |t| > 0 then [Paragraph(t)]
    else []
  }

  /** The render loop. */
  method UnderstandingDisplay(content: string) returns (elements: seq<Block>)
    ensures elements == Walk(Split(content, '\n'), TableBlocks, LineBlocks)
  {
    var lines := Split(content, '\n');
    elements := [];
    var inTable := false;
    var tableBuffer: seq<seq<string>> := [];
    StepStart(lines, TableBlocks, LineBlocks);
    for i := 0 to |lines|
      invariant inTable <==> tableBuffer != []
      invariant Progress(elements, tableBuffer, lines, i, TableBlocks, LineBlocks)
    {
      var trimmedLine := Trim(lines[i]);
      if StartsWith(trimmedLine, "|") && EndsWith(trimmedLine, "|") {
        inTable := true;
        var cells := RowCells(lines[i]);
        StepRow(elements, tableBuffer, lines, i, TableBlocks, LineBlocks);
        tableBuffer := tableBuffer + [cells];
      } else {
        ghost var before, open := elements, tableBuffer;
        ghost var flushed := elements + (if tableBuffer == [] then [] else TableBlocks(tableBuffer));
        if inTable {
          elements, tableBuffer := FlushTable(elements, tableBuffer);
          inTable := false;
        }
        assert elements == flushed;
        elements := RenderLine(elements, lines[i], trimmedLine);
        assert elements == flushed + LineBlocks(lines[i]);
        StepText(before, open, lines, i, elements, TableBlocks, LineBlocks);
      }
    }
    ghost var before, open := elements, tableBuffer;
    elements, tableBuffer := FlushTable(elements, tableBuffer);
    StepEnd(before, open, lines, elements, TableBlocks, LineBlocks);
  }

  /** The heading or paragraph written for a line outside a table. */
  method RenderLine(elements: seq<Block>, line: string, trimmedLine: string) returns (elements': seq<Block>)
    requires trimmedLine == Trim(line)
    ensures elements' == elements + LineBlocks(line)
  {
    elements' := elements;
    if StartsWith(trimmedLine, "**") && EndsWith(trimmedLine, "**") {
      elements' := elements' + [Heading(Inner(trimmedLine))];
    } else if |trimmedLine| > 0 {
      elements' := elements' + [Paragraph(trimmedLine)];
    }
  }

  /** `flushTable`: emits the buffered table, if any, and empties the buffer. */
  method FlushTable(elements: seq<Block>, tableBuffer: seq<seq<string>>) returns (elements': seq<Block>, tableBuffer': seq<seq<string>>)
    ensures elements' == elements + (if tableBuffer == [] then [] else TableBlocks(tableBuffer))
    ensures tableBuffer' == []
  {
    elements' := elements;
    if |tableBuffer| > 0 {
      var headers := tableBuffer[0];
      var rows := if |tableBuffer| > 2 then tableBuffer[2..] else [];
      elements' := elements' + [Table(TrimCells(headers), TrimRows(rows))];
    }
    tableBuffer' := [];
  }

  /** A buffered run becomes one table: the header is the first row trimmed, the body is every
      row after the second, each cell trimmed and nothing else. */
  lemma TableShape(buffer: seq<seq<string>>)
    requires buffer != []
    ensures |TableBlocks(buffer)| == 1 && TableBlocks(buffer)[0].Table?
    ensures var t := TableBlocks(buffer)[0];
      && t.header == TrimCells(buffer[0])
      && |t.rows| == (if |buffer| > 2 then |buffer| - 2 else 0)
      && forall i :: 0 <= i < |t.rows| ==>
           |t.rows[i]| == |buffer[i + 2]| &&
           forall j :: 0 <= j < |t.rows[i]| ==> t.rows[i][j] == Trim(buffer[i + 2][j])
  {
  }

  /** Outside tables: a blank line gives nothing; a trimmed line that starts and ends with `**`
      is a heading, which, when it has four characters or more, is that line with the two
      characters at each end taken off; any other line is a paragraph of the trimmed line. */
  lemma LineBlocksSpec(line: string)
    ensures var t := Trim(line);
      && (LineBlocks(line) == [] <==> t == [])
      && (|LineBlocks(line)| == 1 && LineBlocks(line)[0].Heading? <==> StartsWith(t, "**") && EndsWith(t, "**"))
      && (|LineBlocks(line)| == 1 && LineBlocks(line)[0].Heading? && |t| >= 4 ==> t == "**" + LineBlocks(line)[0].text + "**")
      && (|LineBlocks(line)| == 1 && LineBlocks(line)[0].Paragraph? ==> LineBlocks(line)[0].text == t)
  {
  }

  /** Every maximal run of table rows becomes exactly one table, so the summary shows as many
      tables as the result view would for the same lines. */
  lemma TablesPerRun(lines: seq<string>)
    ensures CountWhere(Walk(lines, TableBlocks, LineBlocks), IsTable) == Runs(lines)
    ensures Runs(lines) == CountWhere(Walk(lines, Interactive.TableBlocks, Interactive.LineBlocks), Interactive.IsTable)
  {
    forall rows: seq<seq<string>> | rows != [] ensures CountWhere(TableBlocks(rows), IsTable) == 1 {
      CountWhereOne(TableBlocks(rows)[0], IsTable);
    }
    forall line: string, k | 0 <= k < |LineBlocks(line)| ensures !IsTable(LineBlocks(line)[k]) {
    }
    WalkTableCount(lines, TableBlocks, LineBlocks, IsTable, false);
    Interactive.TablesPerRun(lines);
  }

  predicate IsTable(b: Block) { b.Table? }
}
